=== FILE: README.md ===
# Thinkific node for n8n — a Dafny model

This project models the behaviour of the Thinkific integration for the n8n
workflow host. There are three parts.

- **The request helper** (`nodes/Thinkific/GenericFunctions.ts`):
  - the transport options of one authenticated call, leaving out an empty body or query;
  - the error message extracted from a failed call;
  - the page-by-page loop that fetches every item of a list endpoint;
  - the object helpers `convertBooleanStrings`, `buildQueryFromFields` and `simplifyResponse`.
- **The trigger's webhook lifecycle** (`nodes/Thinkific/ThinkificTrigger.node.ts`):
  - `checkExists`, `create` and `delete` as transitions over the node's static `webhookId` slot;
  - `webhook` as a pass-through.
- **The action node's `execute`** (`nodes/Thinkific/Thinkific.node.ts`):
  - for every input record, the request plan its resource and operation select, with the parameters read in the order the source reads them and the bodies merged in the order it merges them;
  - comma-separated id lists parsed with `parseInt(trim(piece), 10)`;
  - the Get Many pattern and its `limit`;
  - the `getByEmail` first-item rule;
  - the record loop, with and without continue-on-fail.

The HTTP transport is an oracle. Every request is answered by a `Reply` given
from outside: either a parsed JSON response, or a transport error carrying an
optional response body and a message. Every operation returns the requests it
made, in order, together with its result or the message of the error it threw.

| file | module | what it holds |
|---|---|---|
| `wrappers.dfy` | `Wrappers` | `Option` and `Result` |
| `text.dfy` | `Text` | white space, `trim`, `split`/`join` on one character, decimal printing and `parseInt`, id lists |
| `json.dfy` | `Json` | JSON values; JavaScript truthiness, property reads, `String()`, object spread, `returnJsonArray` |
| `requests.dfy` | `Requests` | `thinkificApiRequest` options, `getErrorMessage`, one call through the oracle |
| `pagination.dfy` | `Pagination` | `thinkificApiRequestAllItems` |
| `fields.dfy` | `Fields` | `convertBooleanStrings`, `buildQueryFromFields`, `simplifyResponse` |
| `trigger.dfy` | `Trigger` | the webhook lifecycle and `webhook` |
| `plans.dfy` | `Plans` | the per-resource branches of `execute` as request plans |
| `execution.dfy` | `Execution` | carrying out a plan, and the loop over the input records |

Some JavaScript semantics are modelled explicitly:
- **Truthiness:** `null`, `false`, `0` and `""` are falsy; arrays and objects are truthy.
- **Property reads:** reading a key of a non-object gives `undefined`, and reading one of `null` throws a TypeError.
- **`String()`** of numbers, arrays and objects.
- **`parseInt`:** NaN is written as `null` in a JSON body, as `JSON.stringify` does.
- **Spread and `Object.assign`:** the later object wins.

## Model

| member | source | states |
|---|---|---|
| Requests.BuildOptions | nodes/Thinkific/GenericFunctions.ts:25-51 | The URI is the fixed base URL followed by the endpoint. The headers are exactly the API key, the subdomain and the JSON content type. A body is sent iff the body has at least one key, and likewise a query string; when sent, each is the given object. |
| Requests.OptionsRoundTrip | nodes/Thinkific/GenericFunctions.ts:29-51 | Leaving out an empty body or query loses nothing: the call (verb, endpoint, body, query) can be read back exactly from the options. |
| Requests.Invoke | nodes/Thinkific/GenericFunctions.ts:53-60 | A call succeeds iff the transport answered, and then yields the response. Otherwise it throws with the extracted error message. |
| Requests.EnvelopeMessage | nodes/Thinkific/GenericFunctions.ts:100-110 | A vendor envelope with a non-empty `error` yields that error, followed by ": " and the `errors` joined with ", " when they are given. The transport message is then never used. |
| Requests.ErrorMessage | nodes/Thinkific/GenericFunctions.ts:100-115 | When the response body has a truthy `error`, the message starts with that error as text. Without one, the message is never empty. |
| Requests.StringErrorMessage | nodes/Thinkific/GenericFunctions.ts:100-108 | For any body whose `error` is a non-empty string: an array `errors` gives the error, ": " and the joined `errors`; an `errors` of any other kind, or none, gives the error alone. |
| Requests.FallbackMessage | nodes/Thinkific/GenericFunctions.ts:100-115 | Without a body whose `error` is truthy, the message is the transport's own message, or "An unknown error occurred" when that is empty. |
| Requests.ErrorMessageExample | nodes/Thinkific/GenericFunctions.ts:104-106 | `{error: "Invalid", errors: ["Email taken", "Name required"]}` gives "Invalid: Email taken, Name required". |
| Pagination.PageQuery | nodes/Thinkific/GenericFunctions.ts:78-82 | The page query has the caller's keys plus `page` and `limit`. `page` is the page number and `limit` is 100, overriding any the caller gave. Every other caller key keeps its value. |
| Pagination.AllItems | nodes/Thinkific/GenericFunctions.ts:66-95 | The loop makes one request for each reply up to and including the first that stops it. The requests are, in order, for page 1, 2, 3, … with the caller's verb (GET at every call site), limit 100 and an empty body. |
| Pagination.StopIndex | nodes/Thinkific/GenericFunctions.ts:89-92 | The loop stops at the first reply that failed or whose `items` is not an array of exactly 100 elements. Every earlier reply was a full page. |
| Pagination.Collect | nodes/Thinkific/GenericFunctions.ts:77-92 | The loop throws exactly when the reply it stops at is a failure, and then with that failure's message. |
| Pagination.CollectResult | nodes/Thinkific/GenericFunctions.ts:77-92 | When every request succeeds, the result is the in-order concatenation of the `items` of every page fetched; a page without `items` contributes nothing. Otherwise the loop throws the error of its last request, with that request's message. |
| Pagination.AllItemsCount | nodes/Thinkific/GenericFunctions.ts:84-92 | Every page the loop read before its last one contributes exactly 100 items. |
| Pagination.ThreePages | nodes/Thinkific/GenericFunctions.ts:77-92 | Pages of 100, 100 and 37 items give exactly 3 requests and the 237 items in order, whatever list responses or failures would have come afterwards. |
| Pagination.NoItemsFirst | nodes/Thinkific/GenericFunctions.ts:84-92 | A first response without `items` ends the loop after exactly one request, with no items. |
| Pagination.SettlesAt | nodes/Thinkific/GenericFunctions.ts:89-92 | Any reply that stops the loop, anywhere in the reply sequence, makes the loop terminate. |
| Fields.ConvertBooleanStrings | nodes/Thinkific/GenericFunctions.ts:120-134 | The result has the same keys. The exact strings "true" and "false" become booleans. A nested plain object is converted in turn, key by key, so its own "true" and "false" strings become booleans and its other values are kept. Every other value (arrays, numbers, `null`, other strings) is unchanged. |
| Fields.ConvertCleans | nodes/Thinkific/GenericFunctions.ts:120-134 | After conversion no "true"/"false" string is left at the top level or inside nested plain objects. |
| Fields.ConvertFixed | nodes/Thinkific/GenericFunctions.ts:120-134 | Conversion leaves a value unchanged exactly when it holds no such string where the conversion looks. |
| Fields.ConvertIdempotent | nodes/Thinkific/GenericFunctions.ts:120-134 | Converting twice is converting once. |
| Fields.ConvertNestedExample | test/unit/GenericFunctions.test.ts:32-44 | `{user: {active: "true", verified: "false", name: "John"}}` converts to booleans inside the nested object and keeps the name. |
| Fields.BuildQueryFromFields | nodes/Thinkific/GenericFunctions.ts:139-153 | A key is in the query iff it is one of `page`, `limit`, `query` and is truthy in the fields; each copied key keeps its value. |
| Fields.QueryIdempotent | nodes/Thinkific/GenericFunctions.ts:139-153 | Building the query from a built query changes nothing. |
| Fields.QueryExample | test/unit/GenericFunctions.test.ts:98-112 | Combines the inputs of the two tests there in one object: `{page: 3, limit: 25, query: "search term", name: "Test"}` gives exactly `{page: 3, limit: 25, query: "search term"}`. |
| Fields.SimplifyResponse | nodes/Thinkific/GenericFunctions.ts:158-164 | The response comes back unchanged, whether or not its `items` is an array. |
| Trigger.ListCall | nodes/Thinkific/ThinkificTrigger.node.ts:117 | `checkExists` lists the webhooks with a GET to `/webhooks` that has neither body nor query. |
| Trigger.Scan | nodes/Thinkific/ThinkificTrigger.node.ts:124-130 | The scan finds the first listed webhook whose `target_url` and `topic` equal the node's URL and event. It reports no match only when none matches, and throws only on a `null` entry reached before any match. |
| Trigger.CheckExists | nodes/Thinkific/ThinkificTrigger.node.ts:113-133 | One list request. A failed request throws its message. A false answer never changes the slot. |
| Trigger.CheckExistsFinds | nodes/Thinkific/ThinkificTrigger.node.ts:124-129 | For any list response whose `items` is an array: when the webhook at index k is the first match, the answer is true and the slot holds that webhook's id. |
| Trigger.CheckExistsMisses | nodes/Thinkific/ThinkificTrigger.node.ts:124-132 | For any list response whose `items` is an array: when no listed webhook matches, the answer is false and the slot is untouched. |
| Trigger.CheckExistsIff | nodes/Thinkific/ThinkificTrigger.node.ts:120-132 | For any list response whose `items` is an array without `null` entries, the answer is true exactly when some listed webhook matches. |
| Trigger.CheckExistsNoItems | nodes/Thinkific/ThinkificTrigger.node.ts:118-122 | A response without truthy `items` answers false and leaves the slot untouched. |
| Trigger.CreateCall | nodes/Thinkific/ThinkificTrigger.node.ts:139-144 | `create` POSTs exactly `{topic: event, target_url: webhookUrl}` to `/webhooks` with no query. |
| Trigger.DeleteCall | nodes/Thinkific/ThinkificTrigger.node.ts:161 | `delete` sends a DELETE to `/webhooks/` followed by the stored id as text, with neither body nor query. |
| Trigger.Create | nodes/Thinkific/ThinkificTrigger.node.ts:135-154 | A response without `id` answers false and leaves the slot unchanged. Otherwise the id is stored and the answer is true. A failed request throws. |
| Trigger.Delete | nodes/Thinkific/ThinkificTrigger.node.ts:156-169 | `delete` never throws. An empty slot sends nothing and answers true. A stored id sends one DELETE for it; a failure answers false and keeps the id, a success clears the slot and answers true. |
| Trigger.DeleteIdempotent | nodes/Thinkific/ThinkificTrigger.node.ts:159-168 | Once a delete succeeded, deleting again sends nothing and answers true. |
| Trigger.DeleteRetries | nodes/Thinkific/ThinkificTrigger.node.ts:160-164 | After a failed delete, the next delete sends the very same request again. |
| Trigger.CreateThenDelete | nodes/Thinkific/ThinkificTrigger.node.ts:146-165 | The id a successful `create` stored is the one `delete` puts into its DELETE path, and the slot ends empty. |
| Trigger.DeleteNumericId | nodes/Thinkific/ThinkificTrigger.node.ts:161 | A numeric id goes into the DELETE path as its decimal digits. |
| Trigger.Webhook | nodes/Thinkific/ThinkificTrigger.node.ts:173-181 | The received body is the one output batch: one record per element of an array, otherwise the body itself. |
| Text.Trim | nodes/Thinkific/Thinkific.node.ts:635 | `trim()` leaves no white space at either end. |
| Text.TrimExact | nodes/Thinkific/Thinkific.node.ts:635 | Trimming removes exactly the white space around a trimmed core, and nothing of the core. |
| Text.ParseInt | nodes/Thinkific/Thinkific.node.ts:635 | `parseInt` gives NaN exactly when no digit follows the leading white space and an optional sign. |
| Text.ParseIntReads | nodes/Thinkific/Thinkific.node.ts:635 | After leading white space and an optional sign, `parseInt` reads the whole run of decimal digits, leading zeros included. It ignores whatever follows and negates the value after a minus sign. |
| Text.LeadingZerosExample | nodes/Thinkific/Thinkific.node.ts:635 | "007" parses to 7. |
| Text.PlusSignExample | nodes/Thinkific/Thinkific.node.ts:635 | "+5" parses to 5. |
| Text.TrailingTextExample | nodes/Thinkific/Thinkific.node.ts:635 | "12abc" parses to 12. |
| Text.Split | nodes/Thinkific/Thinkific.node.ts:635 | `split(',')` gives one piece more than there are commas. No piece holds a comma, and joining the pieces with commas gives the input back. |
| Text.ParseIdList | nodes/Thinkific/Thinkific.node.ts:635 | An id list has exactly one entry per comma plus one. |
| Text.IdListRoundTrip | nodes/Thinkific/Thinkific.node.ts:635 | Ids written with commas between them, each with any white space around it, parse back to exactly those ids, in order. |
| Text.ParseDecimal | nodes/Thinkific/Thinkific.node.ts:324-325 | `parseInt` reads back what `String` printed: every integer survives the trip. |
| Text.TrimIdempotent | nodes/Thinkific/Thinkific.node.ts:635 | Trimming twice is trimming once. |
| Text.BlankPieceIsNaN | nodes/Thinkific/Thinkific.node.ts:635 | A blank piece (the middle one of "1,,2") parses to NaN, and the pieces around it are still read one per comma. |
| Text.IdListExample | nodes/Thinkific/Thinkific.node.ts:635 | " 1, 2,3 " parses to [1, 2, 3]. |
| Json.ElemStrs | nodes/Thinkific/GenericFunctions.ts:106 | `join` turns each element into one string, in order, and `null` into the empty string. |
| Json.IntOfNumber | nodes/Thinkific/Thinkific.node.ts:324-325 | An integer, or its decimal text, goes into a body as that integer. |
| Plans.Param | nodes/Thinkific/Thinkific.node.ts:190 | A parameter read succeeds iff the parameter is there, and then yields its value. Otherwise it throws. |
| Plans.IdList | nodes/Thinkific/Thinkific.node.ts:635 | Only a string can be split. It gives the parsed id list, NaN written as `null`; any other value throws a TypeError naming the expression. |
| Plans.MoveIds | nodes/Thinkific/Thinkific.node.ts:520-523 | A truthy id-list field is moved from the remaining fields into the body, parsed. A falsy or absent one leaves both untouched. A non-string one throws. |
| Plans.GetMany | nodes/Thinkific/Thinkific.node.ts:219-232 | `returnAll` is read first. The plan fetches every page iff `returnAll` is truthy; otherwise `limit` is read and one GET is made. |
| Plans.GetManyOnePage | nodes/Thinkific/Thinkific.node.ts:225-231 | Without `returnAll`, the one request's query is the filters plus `limit` and `page: 1`, both overriding the filters, with every other filter kept. |
| Plans.GetManyEveryPage | nodes/Thinkific/Thinkific.node.ts:222-223 | With `returnAll`, the pagination loop gets the branch's query unchanged: the `filters` collection, or the branch's own fixed query. `limit` is never read. |
| Plans.EnrollmentsFixedQuery | nodes/Thinkific/Thinkific.node.ts:350-377 | Enrollments by course or by user with `returnAll` fetch every page of `/enrollments`. The query holds only `course_id` or only `user_id`, as given. |
| Plans.UserCreateBody | nodes/Thinkific/Thinkific.node.ts:189-198 | User create POSTs `{email, ...additionalFields}`: every additional field is there, and an `email` among them replaces the required one. |
| Plans.EnrollmentCreateBody | nodes/Thinkific/Thinkific.node.ts:318-329 | Enrollment create POSTs `user_id` and `course_id` parsed as integers plus every additional field. The additional fields win on a clash. |
| Plans.OrderCreateBody | nodes/Thinkific/Thinkific.node.ts:462-476 | External order create POSTs `user_id` and `product_id` parsed as integers and `payment_provider`, plus every additional field. The additional fields win on a clash. |
| Plans.CouponCreateBody | nodes/Thinkific/Thinkific.node.ts:569-580 | Coupon create POSTs `code` and `promotion_id` parsed as an integer, plus every additional field. The additional fields win on a clash. |
| Plans.EnrollmentCreateIds | nodes/Thinkific/Thinkific.node.ts:323-327 | Numeric text ids are sent as those integers. |
| Plans.MoveThenAssign | nodes/Thinkific/Thinkific.node.ts:520-525 | Moving an id list and then assigning the remaining fields gives every key of either. The remaining fields win, and the id list appears in its parsed form when it was truthy. |
| Plans.PromotionCreateBody | nodes/Thinkific/Thinkific.node.ts:508-527 | Promotion create always sends `name`, `discount_type` and `discount_amount`. A truthy string `product_ids` is replaced by its parsed integers, so the raw text never reaches the body. Every other additional field is copied over. |
| Plans.PromotionCreateRejects | nodes/Thinkific/Thinkific.node.ts:520-521 | A truthy `product_ids` that is not a string throws before any request. |
| Plans.PromotionUpdateBody | nodes/Thinkific/Thinkific.node.ts:555-563 | Promotion update sends the update fields, with a truthy `product_ids` parsed in place. A present but falsy `product_ids` is sent unchanged. |
| Plans.FirstMove | nodes/Thinkific/Thinkific.node.ts:649-652 | The first of two id-list moves keeps the second field untouched among the remaining fields. |
| Plans.MoveTwiceThenAssign | nodes/Thinkific/Thinkific.node.ts:645-659 | Two id-list moves followed by the assignment give every key of either. Each truthy list appears parsed; a present but falsy one is kept as it was. The other remaining fields win over the base body. |
| Plans.GroupCreateBody | nodes/Thinkific/Thinkific.node.ts:641-661 | Group create merges the remaining additional fields over `{name}`, after turning truthy `user_ids` and `group_analyst_ids` into integer lists. Present but falsy ones are sent unchanged. |
| Plans.AddUsersBody | nodes/Thinkific/Thinkific.node.ts:630-638 | Adding users POSTs the parsed id list, in order, to the group's `users` path. A `userIds` that is not a string throws. |
| Plans.AddUsersExample | nodes/Thinkific/Thinkific.node.ts:634-636 | `userIds` " 1, 2,3 " sends `user_ids` [1, 2, 3]. |
| Plans.UserPlan | nodes/Thinkific/Thinkific.node.ts:188-241 | The branch plans something exactly for create, delete, get, getByEmail, getAll and update; any other operation plans nothing. It throws only a missing parameter. A GET or DELETE carries no body. Only `getByEmail` takes the first item of the response. |
| Plans.CoursePlan | nodes/Thinkific/Thinkific.node.ts:244-314 | The branch plans something exactly for get, getChapters, getContents, getLessons and getAll; any other operation plans nothing. It throws only a missing parameter. A GET or DELETE carries no body. |
| Plans.EnrollmentPlan | nodes/Thinkific/Thinkific.node.ts:317-412 | The branch plans something exactly for create, delete, expire, get, getByCourse, getByUser, getAll and update; any other operation plans nothing. It throws only a missing parameter. A GET or DELETE carries no body. |
| Plans.ProductPlan | nodes/Thinkific/Thinkific.node.ts:415-458 | The branch plans something exactly for get, getCourses, getAll and getPrices; any other operation plans nothing. It throws only a missing parameter. A GET or DELETE carries no body. |
| Plans.OrderPlan | nodes/Thinkific/Thinkific.node.ts:461-504 | The branch plans something exactly for createExternal, get, getAll and refund; any other operation plans nothing. It throws only a missing parameter. A GET or DELETE carries no body. |
| Plans.PromotionPlan | nodes/Thinkific/Thinkific.node.ts:507-565 | The branch plans something exactly for create, delete, get, getAll and update; any other operation plans nothing. It throws only a missing parameter or a `product_ids` that is not a string. A GET or DELETE carries no body. |
| Plans.CouponPlan | nodes/Thinkific/Thinkific.node.ts:568-626 | The branch plans something exactly for create, delete, get, getAll, update and validate; any other operation plans nothing. It throws only a missing parameter. A GET or DELETE carries no body. |
| Plans.GroupPlan | nodes/Thinkific/Thinkific.node.ts:629-706 | The branch plans something exactly for addUsers, create, get, getAnalysts, getAll and removeUser; any other operation plans nothing. It throws only a missing parameter or an id list that is not a string. A GET or DELETE carries no body. |
| Plans.WebhookPlan | nodes/Thinkific/Thinkific.node.ts:709-748 | The branch plans something exactly for create, delete, getAll and update; any other operation plans nothing. It throws only a missing parameter. A GET or DELETE carries no body. |
| Plans.PlanFor | nodes/Thinkific/Thinkific.node.ts:185-748 | Nothing is planned exactly when the resource has no branch or its branch does not handle the operation. Every throw is a missing parameter or an id list that is not a string. A GET or DELETE carries no body. Only a user `getByEmail` takes the first item of the response. |
| Plans.UnknownResource | nodes/Thinkific/Thinkific.node.ts:185-748 | A resource with no branch plans no request. |
| Plans.MissingIdThrows | nodes/Thinkific/Thinkific.node.ts:206-208 | A `get` whose id parameter cannot be read throws before any request, for every resource with a `get`. |
| Execution.RunPlan | nodes/Thinkific/Thinkific.node.ts:185-241 | A plan of one request makes exactly that request and throws the transport's message when it fails. A plain request that succeeds outputs the vendor's response unchanged. Fetching every page makes one GET per page read, for pages 1, 2, … under the plan's query. No plan makes no request and leaves the output `{}`. |
| Execution.FirstOf | nodes/Thinkific/Thinkific.node.ts:214-215 | The first element of a non-empty `items` array, or `{}` when `items` is absent, falsy or an empty array. |
| Execution.ItemsOr | nodes/Thinkific/Thinkific.node.ts:231 | `items` when it is truthy, otherwise `[]`. |
| Execution.Handle | nodes/Thinkific/Thinkific.node.ts:184-749 | One record's try body: a plan that throws makes no request and fails with its error; an operation the resource does not handle makes no request and outputs `{}`; a single-request plan makes exactly its request, and a plain one outputs the vendor's response unchanged when it succeeds. Fetching every page makes one GET per page read, for pages 1, 2, … under the plan's query. |
| Execution.Responses | nodes/Thinkific/Thinkific.node.ts:183-749 | There is one response per input record, and record i's response is its own plan carried out on its own parameters and replies. |
| Execution.NoRequestWithoutPlan | nodes/Thinkific/Thinkific.node.ts:183-241 | A record whose plan throws makes no request and fails with that error. A record with nothing to do makes no request and outputs `{}`. |
| Execution.GetByEmailFirst | nodes/Thinkific/Thinkific.node.ts:211-216 | `getByEmail` makes one GET to `/users` with query `{query: {email}}`. For any response whose `items` is an array, it yields the first listed user, or `{}` when there is none. |
| Execution.OnePageItems | nodes/Thinkific/Thinkific.node.ts:226-231 | Get Many without `returnAll` yields the page's `items`, or `[]` when absent. |
| Execution.EveryPageItems | nodes/Thinkific/Thinkific.node.ts:222-223 | Get Many with `returnAll` yields every page's items, in order, as one array. |
| Execution.Tag | nodes/Thinkific/Thinkific.node.ts:750-753 | Every output record of record i carries `item: i`, in the order `returnJsonArray` gave. |
| Execution.Contribution | nodes/Thinkific/Thinkific.node.ts:750-762 | A record contributes its response's records, tagged with its index. A failing one contributes exactly `{error: message}`, tagged with its index. |
| Execution.Loop | nodes/Thinkific/Thinkific.node.ts:183-767 | Under continue-on-fail the loop never throws. Every output record's index is one of the records processed. |
| Execution.Execute | nodes/Thinkific/Thinkific.node.ts:177-769 | `execute` uses one resource and operation for every record. Under continue-on-fail it never throws, and every output index is the index of an input record. |
| Execution.ContinueOnFail | nodes/Thinkific/Thinkific.node.ts:756-763 | Under continue-on-fail every record is processed and every record's requests are made. The output is each record's contribution in index order. |
| Execution.NoFailureSameOutput | nodes/Thinkific/Thinkific.node.ts:756-765 | When no record fails, the run is the same with or without continue-on-fail. |
| Execution.AbortAtFirstFailure | nodes/Thinkific/Thinkific.node.ts:764-765 | Without continue-on-fail, the first failing record ends the run with its error. Only the requests of the records up to it are made. |
| Execution.OutputsInOrder | nodes/Thinkific/Thinkific.node.ts:183-767 | Output records come in the order of the input records they came from. |

## Left out

- **Transport:** the HTTP call, credential loading and the `NodeApiError` wrapper are left out. Every call is answered by a given `Reply`, and a thrown error is represented by its message only.
- **Number values:** numbers are integers. Floating point and the printing of numbers of 10^21 and over are not modelled. No branch does arithmetic; amounts are passed through.
- **Key order:** JSON objects are maps, so the key order of bodies and outputs is not modelled. Which value wins on a clash is.
- **Declarations:** the node and trigger descriptions, the parameter descriptions, the TypeScript types and the credential file are left out; they declare UI and schema only. The 1–100 bounds the descriptions put on `limit` are not imposed: the value is passed through as given.
- **Licensing notice:** the notice the node prints once when loaded (nodes/Thinkific/Thinkific.node.ts:67-79) is host output.
- Pagination.AllItems: requires that some reply stops the loop (`Settles`). The source would go on requesting forever when the vendor keeps sending full pages.
- Pagination.AllItems: also requires that every answer the loop reads is a list response: not `null`, with `items` absent, falsy or an array. A `null` page or a non-array `items` would make the source throw or spread a non-array, which is not modelled.
- Execution.Execute: each record is answered by its own sequence of replies. The replies a record would receive do not depend on what earlier records did, so the vendor's state across records is not modelled. The responses of records after an aborting failure are computed by the model but none of their requests is made.
- **Error texts:** thrown errors that come from the JavaScript runtime or from the host carry fixed stand-in texts. These are a missing parameter, a property read on `null`, a `for ... of` over a value that is not iterable, and `split` on a value that is not a string. The host's real wording is not reproduced.
- Plans.Collection: a collection parameter that is not an object is treated as a failed parameter read. In the source, such a value would be spread as-is.
- Execution.Tag: `returnJsonArray` treats an object with a `json` key specially; that case is not modelled.
- Json.Records: the same `json`-key case of `returnJsonArray` is not modelled; such an object becomes one record as it is.
- Trigger.Webhook: a received body that is an object with a `json` key is not unwrapped, for the same reason.
- Execution.Contribution: a response object with a `json` key is tagged as one record, for the same reason.
- Requests.ErrorMessage: messages are modelled as text. A truthy `error` that is not a string is turned into its text, where the source returns the raw value as the message.
- Plans.MissingIdThrows: stated for the single-record `get` of each resource only; every other branch reads its parameters in the same way, through `Param`.
- Fields.SimplifyResponse: its comment says it returns the items of a list response, but both of its branches return the response unchanged, as its unit tests expect. The model follows the code.

=== FILE: execution.dfy ===
/** `execute` of nodes/Thinkific/Thinkific.node.ts: every input record is
    planned, its requests are answered by the vendor's replies to that record,
    and its response becomes output records tagged with the record's index.
    A record that throws either yields an `{error}` record (continue-on-fail)
    or ends the whole run with that error. */
module Execution {
  import opened Wrappers
  import opened Json
  import opened Requests
  import opened Pagination
  import opened Plans

  /** The replies one plan needs before it is done. */
  predicate Ready(plan: Plan, replies: seq<Reply>) {
    match plan
    case Nothing => true
    case EveryPage(_, _) => Settles(replies) && Shaped(replies)
    case _ => |replies| > 0
  }

  /** The requests one record made and its `responseData`, or the message
      of the error it threw. */
  datatype Response = Response(calls: seq<Call>, result: Result<Json>)

  /** `items && items.length > 0 ? items[0] : {}` for the `items` of a
      response. */
  function FirstOf(items: Option<Json>): (r: Json)
    ensures items.Some? && items.value.JArr? && |items.value.elems| > 0 ==> r == items.value.elems[0]
    ensures !Given(items) ==> r == JObj(map[])
    ensures items == Some(JArr([])) ==> r == JObj(map[])
  {
    if !Given(items) then JObj(map[])
    else
      match items.value
      case JArr(xs) => if |xs| > 0 then xs[0] else JObj(map[])
      case JStr(s) => JStr([s[0]])
      case _ => JObj(map[])
  }

  /** `(response.items as IDataObject[]) || []`. */
  function ItemsOr(items: Option<Json>): (r: Json)
    ensures Given(items) ==> r == items.value
    ensures !Given(items) ==> r == JArr([])
  {
    if Given(items) then items.value else JArr([])
  }

  /** Carries out a plan against the replies to its requests. */
  function RunPlan(plan: Plan, replies: seq<Reply>): (r: Response)
    requires Ready(plan, replies)
    ensures plan.Nothing? ==> r == Response([], Ok(JObj(map[])))
    ensures plan.Send? || plan.FirstItem? || plan.FirstPage? ==> r.calls == [plan.call]
    ensures (plan.Send? || plan.FirstItem? || plan.FirstPage?) && replies[0].Fault? ==>
              r.result == Err(ErrorMessage(replies[0].error))
    ensures plan.Send? && replies[0].Answer? ==> r.result == Ok(replies[0].body)
    ensures plan.EveryPage? ==> |r.calls| == StopIndex(replies) + 1
    ensures plan.EveryPage? ==>
              forall j :: 0 <= j < |r.calls| ==> r.calls[j] == PageCall(GET, plan.endpoint, plan.query, j + 1)
  {
    match plan
    case Nothing => Response([], Ok(JObj(map[])))
    case Send(call) => Response([call], Invoke(replies[0]))
    case FirstItem(call) =>
      Response([call],
        match Invoke(replies[0])
        case Err(m) => Err(m)
        case Ok(response) =>
          if response == JNull then Err(NullRead) else Ok(FirstOf(Prop(response, "items"))))
    case FirstPage(call) =>
      Response([call],
        match Invoke(replies[0])
        case Err(m) => Err(m)
        case Ok(response) =>
          if response == JNull then Err(NullRead) else Ok(ItemsOr(Prop(response, "items"))))
    case EveryPage(endpoint, query) =>
      var run := AllItems(GET, endpoint, query, replies);
      Response(run.calls,
        match run.result
        case Ok(items) => Ok(JArr(items))
        case Err(m) => Err(m))
  }

  /** One record of `execute`: its plan, carried out. A plan that throws
      makes no request and fails with its error; an operation the resource
      does not handle makes no request and outputs `{}`; a single-request
      plan makes exactly its one request. */
  function Handle(resource: string, operation: string, p: Params, replies: seq<Reply>): (r: Response)
    requires PlanFor(resource, operation, p).Ok? ==> Ready(PlanFor(resource, operation, p).value, replies)
    ensures PlanFor(resource, operation, p).Err? ==> r == Response([], Err(PlanFor(resource, operation, p).msg))
    ensures operation !in Operations(resource) ==> r == Response([], Ok(JObj(map[])))
    ensures var plan := PlanFor(resource, operation, p);
            plan.Ok? && (plan.value.Send? || plan.value.FirstItem? || plan.value.FirstPage?) ==>
              r.calls == [plan.value.call]
    ensures var plan := PlanFor(resource, operation, p);
            plan.Ok? && plan.value.Send? && replies[0].Answer? ==> r.result == Ok(replies[0].body)
    ensures var plan := PlanFor(resource, operation, p);
            plan.Ok? && plan.value.EveryPage? ==>
              && |r.calls| == StopIndex(replies) + 1
              && forall j :: 0 <= j < |r.calls| ==>
                   r.calls[j] == PageCall(GET, plan.value.endpoint, plan.value.query, j + 1)
  {
    match PlanFor(resource, operation, p)
    case Err(m) => Response([], Err(m))
    case Ok(plan) => RunPlan(plan, replies)
  }

  /** A record whose plan throws makes no request and fails with that
      error; a record with nothing to do makes no request and outputs `{}`. */
  lemma NoRequestWithoutPlan(resource: string, operation: string, p: Params, replies: seq<Reply>)
    requires PlanFor(resource, operation, p).Err? || PlanFor(resource, operation, p) == Ok(Nothing)
    ensures var r := Handle(resource, operation, p, replies);
            && r.calls == []
            && (PlanFor(resource, operation, p).Err? ==> r.result == Err(PlanFor(resource, operation, p).msg))
            && (PlanFor(resource, operation, p).Ok? ==> r.result == Ok(JObj(map[])))
  {
  }

  /** `getByEmail`: the first of the listed users, or `{}` when there is
      none, after one request with `query: {email}`. */
  lemma GetByEmailFirst(p: Params, response: Json, users: seq<Json>, later: seq<Reply>)
    requires "email" in p
    requires response != JNull && Prop(response, "items") == Some(JArr(users))
    ensures var r := Handle("user", "getByEmail", p, [Answer(response)] + later);
            && r.calls == [Call(GET, "/users", map[], map["query" := JObj(map["email" := p["email"]])])]
            && r.result == Ok(if |users| > 0 then users[0] else JObj(map[]))
  {
  }

  /** Get Many without `returnAll`: the `items` of the one page, or `[]`
      when the response has none. */
  lemma OnePageItems(call: Call, response: Json, later: seq<Reply>)
    requires response != JNull
    ensures var r := RunPlan(FirstPage(call), [Answer(response)] + later);
            && r.calls == [call]
            && r.result == Ok(if Given(Prop(response, "items")) then Prop(response, "items").value else JArr([]))
  {
  }

  /** Get Many with `returnAll`: every page's items, in order, as one array. */
  lemma EveryPageItems(endpoint: string, query: Obj, replies: seq<Reply>)
    requires Settles(replies) && Shaped(replies)
    requires replies[StopIndex(replies)].Answer?
    ensures RunPlan(EveryPage(endpoint, query), replies).result == Ok(JArr(Concat(replies, StopIndex(replies) + 1)))
  {
    CollectResult(replies);
  }

  // ---------------------------------------------------------------------------
  // the loop over the records

  /** An output record with the index of the input record it came from
      (`pairedItem`). */
  datatype Output = Output(json: Json, item: nat)

  /** The error record of continue-on-fail: `{error: message}`. */
  function ErrorRecord(message: string): Json {
    JObj(map["error" := JStr(message)])
  }

  /** `constructExecutionMetaData(records, {itemData: {item: i}})`. */
  function Tag(records: seq<Json>, i: nat): (r: seq<Output>)
    ensures |r| == |records|
    ensures forall k :: 0 <= k < |r| ==> r[k] == Output(records[k], i)
  {
    if |records| == 0 then [] else [Output(records[0], i)] + Tag(records[1..], i)
  }

  /** The replies suffice for every record that plans successfully. */
  predicate Answerable(resource: string, operation: string, records: seq<Params>, replies: seq<seq<Reply>>) {
    && |replies| == |records|
    && forall i :: 0 <= i < |records| ==>
         PlanFor(resource, operation, records[i]).Ok? ==> Ready(PlanFor(resource, operation, records[i]).value, replies[i])
  }

  /** What each record does when it is processed; a record is handled on its
      own parameters and replies, whatever the others did. */
  function Responses(resource: string, operation: string, records: seq<Params>, replies: seq<seq<Reply>>): (rs: seq<Response>)
    requires Answerable(resource, operation, records, replies)
    ensures |rs| == |records|
    ensures forall i :: 0 <= i < |records| ==> rs[i] == Handle(resource, operation, records[i], replies[i])
    decreases |records|
  {
    if |records| == 0 then []
    else [Handle(resource, operation, records[0], replies[0])] + Responses(resource, operation, records[1..], replies[1..])
  }

  /** The outcome of `execute`: every request made, in order, and the output
      records or the error that ended the run. */
  datatype Execution = Execution(calls: seq<Call>, result: Result<seq<Output>>)

  /** What a processed record contributes to the output: its response as
      records, or its error record under continue-on-fail. */
  function Contribution(r: Response, i: nat): (outs: seq<Output>)
    ensures r.result.Err? ==> outs == [Output(ErrorRecord(r.result.msg), i)]
    ensures r.result.Ok? ==> |outs| == |Records(r.result.value)|
    ensures r.result.Ok? ==> forall k :: 0 <= k < |outs| ==> outs[k].json == Records(r.result.value)[k]
    ensures forall k :: 0 <= k < |outs| ==> outs[k].item == i
  {
    match r.result
    case Ok(json) => Tag(Records(json), i)
    case Err(m) => [Output(ErrorRecord(m), i)]
  }

  /** The loop over the records from `i` on, in index order, each record's
      requests made when it is processed. */
  function Loop(responses: seq<Response>, continueOnFail: bool, i: nat): (e: Execution)
    requires i <= |responses|
    ensures continueOnFail ==> e.result.Ok?
    ensures e.result.Ok? ==> forall k :: 0 <= k < |e.result.value| ==> i <= e.result.value[k].item < |responses|
    decreases |responses| - i
  {
    if i == |responses| then Execution([], Ok([]))
    else
      var h := responses[i];
      match h.result
      case Err(m) =>
        if continueOnFail then
          var rest := Loop(responses, continueOnFail, i + 1);
          Execution(h.calls + rest.calls, Ok([Output(ErrorRecord(m), i)] + rest.result.value))
        else Execution(h.calls, Err(m))
      case Ok(json) =>
        var rest := Loop(responses, continueOnFail, i + 1);
        Execution(h.calls + rest.calls,
          match rest.result
          case Ok(outs) => Ok(Tag(Records(json), i) + outs)
          case Err(m) => Err(m))
  }

  /** `execute` over all records, with one resource and operation for every
      record. */
  function Execute(resource: string, operation: string, records: seq<Params>, replies: seq<seq<Reply>>,
                   continueOnFail: bool): (e: Execution)
    requires Answerable(resource, operation, records, replies)
    ensures continueOnFail ==> e.result.Ok?
    ensures e.result.Ok? ==> forall k :: 0 <= k < |e.result.value| ==> e.result.value[k].item < |records|
  {
    Loop(Responses(resource, operation, records, replies), continueOnFail, 0)
  }

  /** The contributions of records `i` to `j - 1`, in order: the reference
      the loop is checked against. */
  function Contributions(responses: seq<Response>, i: nat, j: nat): seq<Output>
    requires i <= j <= |responses|
    decreases j - i
  {
    if i == j then [] else Contribution(responses[i], i) + Contributions(responses, i + 1, j)
  }

  /** The requests of records `i` to `j - 1`, in order. */
  function CallsOf(responses: seq<Response>, i: nat, j: nat): seq<Call>
    requires i <= j <= |responses|
    decreases j - i
  {
    if i == j then [] else responses[i].calls + CallsOf(responses, i + 1, j)
  }

  /** Under continue-on-fail every record is processed: the output is each
      record's contribution in index order, a failing record contributing
      exactly its error record, and every record's requests are made. */
  lemma {:induction false} ContinueOnFail(responses: seq<Response>, i: nat)
    requires i <= |responses|
    ensures var e := Loop(responses, true, i);
            && e.result == Ok(Contributions(responses, i, |responses|))
            && e.calls == CallsOf(responses, i, |responses|)
    decreases |responses| - i
  {
    if i < |responses| {
      ContinueOnFail(responses, i + 1);
    }
  }

  /** Without continue-on-fail, a run in which no record fails gives the same
      requests and output as with it. */
  lemma {:induction false} NoFailureSameOutput(responses: seq<Response>, i: nat)
    requires i <= |responses|
    requires forall k :: i <= k < |responses| ==> responses[k].result.Ok?
    ensures Loop(responses, false, i) == Loop(responses, true, i)
    decreases |responses| - i
  {
    if i < |responses| {
      NoFailureSameOutput(responses, i + 1);
    }
  }

  /** Without continue-on-fail, the first failing record `j` ends the run with
      its error: the requests made are those of records up to `j`, and no
      later record is processed. */
  lemma {:induction false} AbortAtFirstFailure(responses: seq<Response>, i: nat, j: nat)
    requires i <= j < |responses|
    requires responses[j].result.Err?
    requires forall k :: i <= k < j ==> responses[k].result.Ok?
    ensures var e := Loop(responses, false, i);
            && e.result == Err(responses[j].result.msg)
            && e.calls == CallsOf(responses, i, j + 1)
    decreases j - i
  {
    if i < j {
      AbortAtFirstFailure(responses, i + 1, j);
    }
  }

  /** Output records are ordered by the index of the record they came from. */
  predicate Ordered(outs: seq<Output>) {
    forall a, b :: 0 <= a < b < |outs| ==> outs[a].item <= outs[b].item
  }

  /** Records of one index put before ordered records of later indices stay
      ordered. */
  lemma OrderedAppend(head: seq<Output>, rest: seq<Output>, i: nat)
    requires forall k :: 0 <= k < |head| ==> head[k].item == i
    requires forall k :: 0 <= k < |rest| ==> i <= rest[k].item
    requires Ordered(rest)
    ensures Ordered(head + rest)
  {
    var all := head + rest;
    forall a, b | 0 <= a < b < |all|
      ensures all[a].item <= all[b].item
    {
      if b < |head| {
        assert all[a] == head[a] && all[b] == head[b];
      } else if a < |head| {
        assert all[a] == head[a] && all[b] == rest[b - |head|];
      } else {
        assert all[a] == rest[a - |head|] && all[b] == rest[b - |head|];
      }
    }
  }

  /** Output records come in the order of the input records they came from. */
  lemma {:induction false} OutputsInOrder(responses: seq<Response>, continueOnFail: bool, i: nat)
    requires i <= |responses|
    ensures var e := Loop(responses, continueOnFail, i);
            e.result.Ok? ==> Ordered(e.result.value)
    decreases |responses| - i
  {
    var e := Loop(responses, continueOnFail, i);
    if i < |responses| && e.result.Ok? {
      var rest := Loop(responses, continueOnFail, i + 1);
      OutputsInOrder(responses, continueOnFail, i + 1);
      var head := Contribution(responses[i], i);
      assert rest.result.Ok?;
      assert e.result.value == head + rest.result.value;
      OrderedAppend(head, rest.result.value, i);
    }
  }
}

=== FILE: fields.dfy ===
/** The small object helpers of nodes/Thinkific/GenericFunctions.ts:
    `convertBooleanStrings`, `buildQueryFromFields` and `simplifyResponse`. */
module Fields {
  import opened Wrappers
  import opened Json

  // ---------------------------------------------------------------------------
  // convertBooleanStrings

  /** One value as `convertBooleanStrings` writes it: the strings "true" and
      "false" become booleans, a plain object (not `null`, not an array) is
      converted key by key, and everything else is kept. */
  function ConvertValue(v: Json): Json
    decreases v, 1
  {
    match v
    case JStr(s) => if s == "true" then JBool(true) else if s == "false" then JBool(false) else v
    case JObj(m) => JObj(ConvertBooleanStrings(m))
    case _ => v
  }

  /** `convertBooleanStrings(obj)`: the same keys, each value converted. */
  function ConvertBooleanStrings(obj: Obj): (r: Obj)
    ensures r.Keys == obj.Keys
    ensures forall k :: k in obj && obj[k] == JStr("true") ==> r[k] == JBool(true)
    ensures forall k :: k in obj && obj[k] == JStr("false") ==> r[k] == JBool(false)
    ensures forall k :: k in obj && obj[k].JObj? ==> r[k].JObj? && r[k].fields.Keys == obj[k].fields.Keys
    ensures forall k :: k in obj && obj[k].JObj? ==> r[k] == JObj(ConvertBooleanStrings(obj[k].fields))
    ensures forall k :: k in obj && !obj[k].JObj? && obj[k] != JStr("true") && obj[k] != JStr("false") ==>
              r[k] == obj[k]
    decreases JObj(obj), 0
  {
    map k | k in obj :: ConvertValue(obj[k])
  }

  /** No "true" or "false" string is left anywhere a conversion would reach:
      at the top level or inside nested plain objects. Arrays are not looked
      into, as the conversion does not look into them either. */
  predicate NoBoolStrings(v: Json) {
    match v
    case JStr(s) => s != "true" && s != "false"
    case JObj(m) => forall k :: k in m ==> NoBoolStrings(m[k])
    case _ => true
  }

  /** Every converted value is free of boolean strings. */
  lemma {:induction false} ConvertCleans(v: Json)
    ensures NoBoolStrings(ConvertValue(v))
    decreases v
  {
    match v
    case JObj(m) =>
      var r := ConvertBooleanStrings(m);
      forall k | k in r
        ensures NoBoolStrings(r[k])
      {
        ConvertCleans(m[k]);
      }
    case _ =>
  }

  /** The conversion leaves a value unchanged exactly when it holds no
      boolean strings. */
  lemma {:induction false} ConvertFixed(v: Json)
    ensures ConvertValue(v) == v <==> NoBoolStrings(v)
    decreases v
  {
    ConvertCleans(v);
    match v
    case JObj(m) =>
      if NoBoolStrings(v) {
        var r := ConvertBooleanStrings(m);
        forall k | k in m
          ensures r[k] == m[k]
        {
          ConvertFixed(m[k]);
        }
        assert r == m;
      }
    case _ =>
  }

  /** Converting twice is converting once. */
  lemma ConvertIdempotent(obj: Obj)
    ensures ConvertBooleanStrings(ConvertBooleanStrings(obj)) == ConvertBooleanStrings(obj)
  {
    var once := ConvertBooleanStrings(obj);
    ConvertCleans(JObj(obj));
    ConvertFixed(JObj(once));
  }

  /** The nested-object case: boolean strings inside a nested plain object
      are converted too, and other strings are kept. */
  lemma ConvertNestedExample(inner: Obj, obj: Obj)
    requires inner == map["active" := JStr("true"), "verified" := JStr("false"), "name" := JStr("John")]
    requires obj == map["user" := JObj(inner)]
    ensures var r := ConvertBooleanStrings(obj);
            && r.Keys == {"user"}
            && r["user"] == JObj(map["active" := JBool(true), "verified" := JBool(false), "name" := JStr("John")])
  {
    var c := ConvertBooleanStrings(inner);
    assert c == map["active" := JBool(true), "verified" := JBool(false), "name" := JStr("John")];
  }

  // ---------------------------------------------------------------------------
  // buildQueryFromFields

  /** The keys `buildQueryFromFields` copies. */
  const QueryKeys: set<string> := {"page", "limit", "query"}

  /** `buildQueryFromFields(additionalFields)`: `page`, `limit` and `query`
      are copied when truthy; nothing else is. */
  function BuildQueryFromFields(fields: Obj): (q: Obj)
    ensures forall k :: k in q <==> k in QueryKeys && Given(Field(fields, k))
    ensures forall k :: k in q ==> k in fields && q[k] == fields[k]
  {
    var withPage := if Given(Field(fields, "page")) then map["page" := fields["page"]] else map[];
    var withLimit := if Given(Field(fields, "limit")) then withPage["limit" := fields["limit"]] else withPage;
    if Given(Field(fields, "query")) then withLimit["query" := fields["query"]] else withLimit
  }

  /** Building the query from a query changes nothing. */
  lemma QueryIdempotent(fields: Obj)
    ensures BuildQueryFromFields(BuildQueryFromFields(fields)) == BuildQueryFromFields(fields)
  {
    var q := BuildQueryFromFields(fields);
    var qq := BuildQueryFromFields(q);
    assert forall k :: k in qq <==> k in q;
  }

  /** `{page: 3, limit: 25, query: "search term", name: "Test"}` gives
      `{page: 3, limit: 25, query: "search term"}`. */
  lemma QueryExample(fields: Obj, term: string)
    requires term == "search term"
    requires fields == map["page" := JNum(3), "limit" := JNum(25), "query" := JStr(term), "name" := JStr("Test")]
    ensures BuildQueryFromFields(fields) == map["page" := JNum(3), "limit" := JNum(25), "query" := JStr(term)]
  {
    var q := BuildQueryFromFields(fields);
    assert "name" !in q;
    assert q.Keys == {"page", "limit", "query"};
  }

  // ---------------------------------------------------------------------------
  // simplifyResponse

  /** `simplifyResponse(response)`: both of its branches hand the response
      back, so it is the identity whether or not `items` is an array. */
  function SimplifyResponse(response: Obj): (r: Obj)
    ensures r == response
  {
    if Given(Field(response, "items")) && Field(response, "items").value.JArr? then response
    else response
  }
}

=== FILE: json.dfy ===
/** JSON-like values as the node sees them (`IDataObject`), with the few
    JavaScript semantics the node depends on: truthiness, property reads,
    string conversion, object spread and the host's `returnJsonArray`. */
module Json {
  import opened Wrappers
  import Text

  /** A JSON value. Numbers are integers: the node never does arithmetic on
      them. Objects are maps from keys to values. */
  datatype Json =
    | JNull
    | JBool(b: bool)
    | JNum(n: int)
    | JStr(s: string)
    | JArr(elems: seq<Json>)
    | JObj(fields: map<string, Json>)

  type Obj = map<string, Json>

  /** JavaScript truthiness: `null`, `false`, `0` and `""` are falsy; arrays and
      objects, even empty ones, are truthy. */
  predicate Truthy(j: Json) {
    match j
    case JNull => false
    case JBool(b) => b
    case JNum(n) => n != 0
    case JStr(s) => |s| > 0
    case _ => true
  }

  /** Truthiness of a possibly `undefined` value. */
  predicate Given(v: Option<Json>) {
    v.Some? && Truthy(v.value)
  }

  /** The property read `j.key` on a non-null value: objects answer with their
      own entry, every other value has no such data property (`undefined`).
      Only data keys are read this way, never built-ins such as `length`. */
  function Prop(j: Json, key: string): Option<Json> {
    match j
    case JObj(m) => Field(m, key)
    case _ => None
  }

  /** The property read `m.key` on an object. */
  function Field(m: Obj, key: string): (r: Option<Json>)
    ensures r.Some? <==> key in m
    ensures r.Some? ==> r.value == m[key]
  {
    if key in m then Some(m[key]) else None
  }

  /** The message of the TypeError a property read on `null` throws. */
  const NullRead: string := "Cannot read properties of null"

  /** The object `{...base, ...extra}` (also `Object.assign({...base}, extra)`):
      every key of either, and `extra` wins where both have one. */
  function Spread(base: Obj, extra: Obj): (r: Obj)
    ensures r.Keys == base.Keys + extra.Keys
    ensures forall k :: k in extra ==> r[k] == extra[k]
    ensures forall k :: k in base && k !in extra ==> r[k] == base[k]
  {
    base + extra
  }

  /** `String(j)`: how the node turns a value into text, in template strings
      and before `parseInt`. */
  function Str(j: Json): string {
    match j
    case JNull => "null"
    case JBool(b) => if b then "true" else "false"
    case JNum(n) => Text.Decimal(n)
    case JStr(s) => s
    case JArr(xs) => Text.Join(ElemStrs(xs), ",")
    case JObj(_) => "[object Object]"
  }

  /** The strings `Array.prototype.join` uses for the elements: `null` becomes
      the empty string. */
  function ElemStrs(xs: seq<Json>): (r: seq<string>)
    ensures |r| == |xs|
    ensures forall i :: 0 <= i < |xs| ==> r[i] == (if xs[i] == JNull then "" else Str(xs[i]))
  {
    if |xs| == 0 then []
    else [if xs[0] == JNull then "" else Str(xs[0])] + ElemStrs(xs[1..])
  }

  /** `parseInt(String(j), 10)` placed in a JSON body: NaN is written as
      `null`, as `JSON.stringify` does. */
  function IntOf(j: Json): (r: Json)
    ensures r.JNum? || r == JNull
  {
    match Text.ParseInt(Str(j))
    case Some(n) => JNum(n)
    case None => JNull
  }

  /** An integer survives a trip through its text and `parseInt`. */
  lemma IntOfNumber(n: int)
    ensures IntOf(JNum(n)) == JNum(n)
    ensures IntOf(JStr(Text.Decimal(n))) == JNum(n)
  {
    Text.ParseDecimal(n);
  }

  /** The host helper `returnJsonArray`: an array gives one record per
      element, any other value a single record. */
  function Records(j: Json): (r: seq<Json>)
    ensures j.JArr? ==> r == j.elems
    ensures !j.JArr? ==> r == [j]
  {
    if j.JArr? then j.elems else [j]
  }
}

=== FILE: pagination.dfy ===
/** `thinkificApiRequestAllItems` of nodes/Thinkific/GenericFunctions.ts: fetch
    page 1, 2, 3, ... with a fixed page size, concatenating the `items` of each
    page, and stop after the first page that is not full. The vendor's answers
    are a finite sequence of replies, the k-th answering the k-th request. */
module Pagination {
  import opened Wrappers
  import opened Json
  import opened Requests

  const PageSize: nat := 100

  /** The query of page `page`: `{...query, page, limit}`, so the page number
      and page size replace any the caller gave. */
  function PageQuery(query: Obj, page: nat): (q: Obj)
    ensures q.Keys == query.Keys + {"page", "limit"}
    ensures q["page"] == JNum(page) && q["limit"] == JNum(PageSize)
    ensures forall k :: k in query && k != "page" && k != "limit" ==> q[k] == query[k]
  {
    query["page" := JNum(page)]["limit" := JNum(PageSize)]
  }

  /** The request for page `page`. */
  function PageCall(verb: Method, endpoint: string, query: Obj, page: nat): Call {
    Call(verb, endpoint, map[], PageQuery(query, page))
  }

  /** A list response the loop can read without a TypeError: not `null`, and
      its `items` absent, falsy or an array. */
  predicate ListShaped(response: Json) {
    && response != JNull
    && match Prop(response, "items")
       case None => true
       case Some(items) => !Truthy(items) || items.JArr?
  }

  /** The items a page contributes: its `items` array, or nothing. */
  function Items(response: Json): seq<Json> {
    match Prop(response, "items")
    case Some(JArr(xs)) => xs
    case _ => []
  }

  /** The loop goes on after this page: its `items` is an array of exactly
      `PageSize` elements. */
  predicate Full(response: Json) {
    match Prop(response, "items")
    case Some(JArr(xs)) => |xs| == PageSize
    case _ => false
  }

  /** The reply ends the loop: the call failed or the page is not full. */
  predicate Stops(reply: Reply) {
    reply.Fault? || !Full(reply.body)
  }

  /** Some reply ends the loop, so the vendor does not send full pages forever. */
  predicate Settles(replies: seq<Reply>)
    decreases |replies|
  {
    |replies| > 0 && (Stops(replies[0]) || Settles(replies[1..]))
  }

  /** A reply that stops the loop anywhere in the sequence makes it settle. */
  lemma {:induction false} SettlesAt(replies: seq<Reply>, k: nat)
    requires k < |replies| && Stops(replies[k])
    ensures Settles(replies)
    decreases k
  {
    if k > 0 && !Stops(replies[0]) {
      assert replies[1..][k - 1] == replies[k];
      SettlesAt(replies[1..], k - 1);
    }
  }

  /** Every answer the loop may read is a list response. */
  predicate Shaped(replies: seq<Reply>) {
    forall k :: 0 <= k < |replies| && replies[k].Answer? ==> ListShaped(replies[k].body)
  }

  lemma ShapedTail(replies: seq<Reply>)
    requires Shaped(replies) && |replies| > 0
    ensures Shaped(replies[1..])
  {
    forall k | 0 <= k < |replies| - 1 && replies[1..][k].Answer?
      ensures ListShaped(replies[1..][k].body)
    {
      assert replies[1..][k] == replies[k + 1];
    }
  }

  /** Index of the reply that ends the loop: the first one that stops it. */
  function StopIndex(replies: seq<Reply>): (k: nat)
    requires Settles(replies)
    ensures k < |replies| && Stops(replies[k])
    ensures forall j :: 0 <= j < k ==> !Stops(replies[j])
    decreases |replies|
  {
    if Stops(replies[0]) then 0 else 1 + StopIndex(replies[1..])
  }

  /** The requests for `n` pages from page `page` on, in order. */
  function PageCalls(verb: Method, endpoint: string, query: Obj, page: nat, n: nat): (calls: seq<Call>)
    ensures |calls| == n
    ensures forall j :: 0 <= j < n ==> calls[j] == PageCall(verb, endpoint, query, page + j)
    decreases n
  {
    if n == 0 then [] else [PageCall(verb, endpoint, query, page)] + PageCalls(verb, endpoint, query, page + 1, n - 1)
  }

  /** The loop body applied to `replies` in turn: a failed request throws its
      error; an answer adds its items and, when its page was full, the loop
      goes on with the next reply. */
  function Collect(replies: seq<Reply>): (r: Result<seq<Json>>)
    requires Settles(replies) && Shaped(replies)
    ensures r.Err? <==> replies[StopIndex(replies)].Fault?
    ensures r.Err? ==> r.msg == ErrorMessage(replies[StopIndex(replies)].error)
    decreases |replies|
  {
    match replies[0]
    case Fault(e) => Err(ErrorMessage(e))
    case Answer(body) =>
      if Full(body) then
        ShapedTail(replies);
        match Collect(replies[1..])
        case Ok(items) => Ok(Items(body) + items)
        case Err(m) => Err(m)
      else Ok(Items(body))
  }

  /** The outcome of the loop: the requests it issued, in order, and the items
      it returned or the message of the error it threw. */
  datatype Run = Run(calls: seq<Call>, result: Result<seq<Json>>)

  /** `thinkificApiRequestAllItems(verb, endpoint, query)`: one request per
      reply up to and including the one that stops the loop, for pages 1, 2,
      3, ... in order. */
  function AllItems(verb: Method, endpoint: string, query: Obj, replies: seq<Reply>): (run: Run)
    requires Settles(replies) && Shaped(replies)
    ensures |run.calls| == StopIndex(replies) + 1
    ensures forall j :: 0 <= j < |run.calls| ==> run.calls[j] == PageCall(verb, endpoint, query, j + 1)
  {
    Run(PageCalls(verb, endpoint, query, 1, StopIndex(replies) + 1), Collect(replies))
  }

  /** The items of the pages `replies[..n]`, concatenated in order: the
      reference the loop's result is checked against. */
  function Concat(replies: seq<Reply>, n: nat): seq<Json>
    requires n <= |replies|
    requires forall j :: 0 <= j < n ==> replies[j].Answer?
  {
    if n == 0 then [] else Concat(replies, n - 1) + Items(replies[n - 1].body)
  }

  lemma {:induction false} ConcatTail(replies: seq<Reply>, n: nat)
    requires 0 < n <= |replies|
    requires forall j :: 0 <= j < n ==> replies[j].Answer?
    ensures Concat(replies, n) == Items(replies[0].body) + Concat(replies[1..], n - 1)
  {
    if n > 1 {
      ConcatTail(replies, n - 1);
      assert replies[1..][n - 2] == replies[n - 1];
    }
  }

  /** The loop returns the in-order concatenation of the `items` of every page
      it fetched when every request succeeded, and otherwise throws the error
      of the one that failed, which is the last request it made. */
  lemma {:induction false} CollectResult(replies: seq<Reply>)
    requires Settles(replies) && Shaped(replies)
    ensures var k := StopIndex(replies);
            && (replies[k].Answer? ==> Collect(replies) == Ok(Concat(replies, k + 1)))
            && (replies[k].Fault? ==> Collect(replies) == Err(ErrorMessage(replies[k].error)))
    decreases |replies|
  {
    var k := StopIndex(replies);
    if k > 0 {
      ShapedTail(replies);
      CollectResult(replies[1..]);
      assert replies[1..][k - 1] == replies[k];
      if replies[k].Answer? {
        ConcatTail(replies, k + 1);
      }
    } else if replies[0].Answer? {
      assert Concat(replies, 1) == Items(replies[0].body);
    }
  }

  /** Pages that all held exactly `PageSize` items contribute `PageSize` items
      each; every page the loop fetched before its last one is such a page. */
  lemma {:induction false} AllItemsCount(replies: seq<Reply>, n: nat)
    requires n <= |replies|
    requires forall j :: 0 <= j < n ==> replies[j].Answer? && Full(replies[j].body)
    ensures |Concat(replies, n)| == PageSize * n
  {
    if n > 0 {
      AllItemsCount(replies, n - 1);
    }
  }

  /** A list response with the given items. */
  function Page(items: seq<Json>): Json {
    JObj(map["items" := JArr(items)])
  }

  lemma PageItems(items: seq<Json>)
    ensures Prop(Page(items), "items") == Some(JArr(items))
    ensures Items(Page(items)) == items
    ensures Full(Page(items)) <==> |items| == PageSize
  {
  }

  /** Pages of 100, 100 and 37 items: three requests, for pages 1, 2 and 3,
      and the 237 items in order, whatever list responses or failures the
      vendor would have answered afterwards. */
  lemma ThreePages(a: seq<Json>, b: seq<Json>, c: seq<Json>, replies: seq<Reply>, verb: Method, endpoint: string, query: Obj)
    requires |a| == 100 && |b| == 100 && |c| == 37
    requires |replies| >= 3 && Shaped(replies)
    requires replies[0] == Answer(Page(a)) && replies[1] == Answer(Page(b)) && replies[2] == Answer(Page(c))
    ensures Settles(replies)
    ensures var run := AllItems(verb, endpoint, query, replies);
            && |run.calls| == 3
            && run.result == Ok(a + b + c)
            && |run.result.value| == 237
  {
    PageItems(a); PageItems(b); PageItems(c);
    assert Full(replies[0].body) && Full(replies[1].body) && Stops(replies[2]);
    SettlesAt(replies, 2);
    assert StopIndex(replies) == 2 by {
      assert !Stops(replies[0]) && !Stops(replies[1]);
    }
    CollectResult(replies);
    assert Concat(replies, 3) == a + b + c by {
      assert Concat(replies, 1) == a;
      assert Concat(replies, 2) == a + b;
    }
  }

  /** A first answer without `items` ends the loop at once: one request and no
      items. */
  lemma NoItemsFirst(replies: seq<Reply>, verb: Method, endpoint: string, query: Obj)
    requires |replies| > 0 && replies[0].Answer? && Prop(replies[0].body, "items").None?
    requires Shaped(replies)
    ensures Settles(replies)
    ensures var run := AllItems(verb, endpoint, query, replies);
            |run.calls| == 1 && run.result == Ok([])
  {
  }
}

=== FILE: plans.dfy ===
/** What `execute` of nodes/Thinkific/Thinkific.node.ts does for one input
    record, up to the requests it makes: the resource and operation select a
    branch, the branch reads the record's parameters in order and builds a
    request plan. Reading a parameter that is not there throws, and so does
    splitting an id list that is not a string. */
module Plans {
  import opened Wrappers
  import opened Json
  import opened Requests
  import Text

  /** The parameters of one record, by name, as `getNodeParameter(name, i)`
      returns them. */
  type Params = map<string, Json>

  /** The host's error for a parameter it cannot supply. */
  const MissingParam: string := "Could not get parameter"

  /** `getNodeParameter(name, i)`. */
  function Param(p: Params, name: string): (r: Result<Json>)
    ensures r.Ok? <==> name in p
    ensures r.Ok? ==> r.value == p[name]
    ensures r.Err? ==> r.msg == MissingParam
  {
    if name in p then Ok(p[name]) else Err(MissingParam)
  }

  /** A collection parameter (`additionalFields`, `filters`, `updateFields`):
      an object of optional fields. */
  function Collection(p: Params, name: string): (r: Result<Obj>)
    ensures r.Ok? <==> name in p && p[name].JObj?
    ensures r.Ok? ==> JObj(r.value) == p[name]
    ensures r.Err? ==> r.msg == MissingParam
  {
    if name in p && p[name].JObj? then Ok(p[name].fields) else Err(MissingParam)
  }

  /** An id written into a path: `${id}`. */
  function PathOf(prefix: string, id: Json): string {
    prefix + Str(id)
  }

  /** The integers of a parsed id list as a JSON array, NaN written `null`. */
  function IdValues(ids: seq<Option<int>>): (r: seq<Json>)
    ensures |r| == |ids|
    ensures forall i :: 0 <= i < |ids| ==> r[i] == (if ids[i].Some? then JNum(ids[i].value) else JNull)
  {
    if |ids| == 0 then []
    else [if ids[0].Some? then JNum(ids[0].value) else JNull] + IdValues(ids[1..])
  }

  /** `v.split(',').map(id => parseInt(id.trim(), 10))`: only a string can be
      split; anything else throws a TypeError naming the expression. */
  function IdList(v: Json, expr: string): (r: Result<Json>)
    ensures r.Ok? <==> v.JStr?
    ensures r.Ok? ==> r.value == JArr(IdValues(Text.ParseIdList(v.s)))
    ensures r.Err? ==> r.msg == NotSplittable(expr)
  {
    match v
    case JStr(s) => Ok(JArr(IdValues(Text.ParseIdList(s))))
    case _ => Err(NotSplittable(expr))
  }

  /** The TypeError of calling `split` on a value that is not a string. */
  function NotSplittable(expr: string): string {
    expr + ".split is not a function"
  }

  // ---------------------------------------------------------------------------
  // plans

  /** What one record asks of the vendor, and how its output is read from
      the response. */
  datatype Plan =
      /** One request; the response is the output. */
    | Send(call: Call)
      /** `getByEmail`: one request; the first of its `items`, or `{}`. */
    | FirstItem(call: Call)
      /** Get Many without `returnAll`: one request; its `items`, or `[]`. */
    | FirstPage(call: Call)
      /** Get Many with `returnAll`: the pagination loop over the endpoint. */
    | EveryPage(endpoint: string, query: Obj)
      /** No branch matched: no request, and the output stays `{}`. */
    | Nothing

  /** A plan that makes a single request without a query. */
  function Plain(verb: Method, endpoint: string, body: Obj): Plan {
    Send(Call(verb, endpoint, body, map[]))
  }

  /** A read or a delete sends no body. */
  predicate NoBodyOnRead(plan: Plan) {
    plan.Send? && (plan.call.verb == GET || plan.call.verb == DELETE) ==> plan.call.body == map[]
  }

  /** Where a Get Many branch takes its filters from: the `filters`
      collection, or a fixed query of its own (possibly empty). */
  datatype Filters = ReadFilters | Fixed(query: Obj)

  /** The Get Many pattern: `returnAll` first; then the filters; with
      `returnAll` every page is fetched under the filters, otherwise `limit`
      is read and one request asks for page 1 of that size. */
  function GetMany(p: Params, endpoint: string, filters: Filters): (r: Result<Plan>)
    ensures r.Ok? ==> "returnAll" in p
    ensures r.Ok? ==> (r.value.EveryPage? <==> Truthy(p["returnAll"]))
    ensures r.Ok? ==> r.value.EveryPage? || r.value.FirstPage?
    ensures r.Ok? && r.value.FirstPage? ==> "limit" in p && r.value.call.verb == GET
    ensures r.Ok? && r.value.EveryPage? ==> r.value.endpoint == endpoint
    ensures r.Err? ==> r.msg == MissingParam
  {
    var returnAll :- Param(p, "returnAll");
    var base :- match filters
                case ReadFilters => Collection(p, "filters")
                case Fixed(q) => Ok(q);
    if Truthy(returnAll) then Ok(EveryPage(endpoint, base))
    else
      var limit :- Param(p, "limit");
      Ok(FirstPage(Call(GET, endpoint, map[], base["limit" := limit]["page" := JNum(1)])))
  }

  /** Without `returnAll`, the one request asks for page 1 with the given
      `limit`, both overriding the filters, and keeps every other filter. */
  lemma GetManyOnePage(p: Params, endpoint: string, filters: Filters, base: Obj)
    requires "returnAll" in p && !Truthy(p["returnAll"]) && "limit" in p
    requires filters == Fixed(base) || (filters == ReadFilters && "filters" in p && p["filters"] == JObj(base))
    ensures var r := GetMany(p, endpoint, filters);
            && r.Ok? && r.value.FirstPage?
            && r.value.call.endpoint == endpoint && r.value.call.body == map[]
            && r.value.call.query.Keys == base.Keys + {"limit", "page"}
            && r.value.call.query["limit"] == p["limit"]
            && r.value.call.query["page"] == JNum(1)
            && forall k :: k in base && k != "limit" && k != "page" ==> r.value.call.query[k] == base[k]
  {
  }

  /** With `returnAll`, the filters, or the branch's fixed query, go
      unchanged to the pagination loop and `limit` is never read. */
  lemma GetManyEveryPage(p: Params, endpoint: string, filters: Filters, base: Obj)
    requires "returnAll" in p && Truthy(p["returnAll"])
    requires filters == Fixed(base) || (filters == ReadFilters && "filters" in p && p["filters"] == JObj(base))
    ensures GetMany(p, endpoint, filters) == Ok(EveryPage(endpoint, base))
    ensures GetMany(p - {"limit"}, endpoint, filters) == Ok(EveryPage(endpoint, base))
  {
  }

  // ---------------------------------------------------------------------------
  // the branches of `execute`, one function per resource

  /** The operations the user branch handles. */
  const UserOperations: set<string> := {"create", "delete", "get", "getByEmail", "getAll", "update"}

  function UserPlan(operation: string, p: Params): (r: Result<Plan>)
    ensures r == Ok(Nothing) <==> operation !in UserOperations
    ensures r.Err? ==> r.msg == MissingParam
    ensures r.Ok? ==> NoBodyOnRead(r.value)
    ensures r.Ok? && r.value.FirstItem? ==> operation == "getByEmail"
  {
    if operation == "create" then
      var email :- Param(p, "email");
      var additional :- Collection(p, "additionalFields");
      Ok(Plain(POST, "/users", Spread(map["email" := email], additional)))
    else if operation == "delete" then
      var userId :- Param(p, "userId");
      Ok(Plain(DELETE, PathOf("/users/", userId), map[]))
    else if operation == "get" then
      var userId :- Param(p, "userId");
      Ok(Plain(GET, PathOf("/users/", userId), map[]))
    else if operation == "getByEmail" then
      var email :- Param(p, "email");
      Ok(FirstItem(Call(GET, "/users", map[], map["query" := JObj(map["email" := email])])))
    else if operation == "getAll" then
      GetMany(p, "/users", ReadFilters)
    else if operation == "update" then
      var userId :- Param(p, "userId");
      var updateFields :- Collection(p, "updateFields");
      Ok(Plain(PUT, PathOf("/users/", userId), updateFields))
    else Ok(Nothing)
  }

  /** The operations the course branch handles. */
  const CourseOperations: set<string> := {"get", "getChapters", "getContents", "getLessons", "getAll"}

  function CoursePlan(operation: string, p: Params): (r: Result<Plan>)
    ensures r == Ok(Nothing) <==> operation !in CourseOperations
    ensures r.Err? ==> r.msg == MissingParam
    ensures r.Ok? ==> NoBodyOnRead(r.value)
    ensures r.Ok? ==> !r.value.FirstItem?
  {
    if operation == "get" then
      var courseId :- Param(p, "courseId");
      Ok(Plain(GET, PathOf("/courses/", courseId), map[]))
    else if operation == "getChapters" then
      var courseId :- Param(p, "courseId");
      GetMany(p, PathOf("/courses/", courseId) + "/chapters", Fixed(map[]))
    else if operation == "getContents" then
      var courseId :- Param(p, "courseId");
      GetMany(p, PathOf("/courses/", courseId) + "/contents", Fixed(map[]))
    else if operation == "getLessons" then
      var chapterId :- Param(p, "chapterId");
      GetMany(p, PathOf("/chapters/", chapterId) + "/contents", Fixed(map[]))
    else if operation == "getAll" then
      GetMany(p, "/courses", ReadFilters)
    else Ok(Nothing)
  }

  /** The operations the enrollment branch handles. */
  const EnrollmentOperations: set<string> := {"create", "delete", "expire", "get", "getByCourse", "getByUser", "getAll", "update"}

  function EnrollmentPlan(operation: string, p: Params): (r: Result<Plan>)
    ensures r == Ok(Nothing) <==> operation !in EnrollmentOperations
    ensures r.Err? ==> r.msg == MissingParam
    ensures r.Ok? ==> NoBodyOnRead(r.value)
    ensures r.Ok? ==> !r.value.FirstItem?
  {
    if operation == "create" then
      var userId :- Param(p, "userId");
      var courseId :- Param(p, "courseId");
      var additional :- Collection(p, "additionalFields");
      Ok(Plain(POST, "/enrollments",
               Spread(map["user_id" := IntOf(userId), "course_id" := IntOf(courseId)], additional)))
    else if operation == "delete" then
      var enrollmentId :- Param(p, "enrollmentId");
      Ok(Plain(DELETE, PathOf("/enrollments/", enrollmentId), map[]))
    else if operation == "expire" then
      var enrollmentId :- Param(p, "enrollmentId");
      var expiryDate :- Param(p, "expiryDate");
      Ok(Plain(PUT, PathOf("/enrollments/", enrollmentId), map["expiry_date" := expiryDate]))
    else if operation == "get" then
      var enrollmentId :- Param(p, "enrollmentId");
      Ok(Plain(GET, PathOf("/enrollments/", enrollmentId), map[]))
    else if operation == "getByCourse" then
      var courseId :- Param(p, "courseId");
      GetMany(p, "/enrollments", Fixed(map["course_id" := courseId]))
    else if operation == "getByUser" then
      var userId :- Param(p, "userId");
      GetMany(p, "/enrollments", Fixed(map["user_id" := userId]))
    else if operation == "getAll" then
      GetMany(p, "/enrollments", ReadFilters)
    else if operation == "update" then
      var enrollmentId :- Param(p, "enrollmentId");
      var updateFields :- Collection(p, "updateFields");
      Ok(Plain(PUT, PathOf("/enrollments/", enrollmentId), updateFields))
    else Ok(Nothing)
  }

  /** The operations the product branch handles. */
  const ProductOperations: set<string> := {"get", "getCourses", "getAll", "getPrices"}

  function ProductPlan(operation: string, p: Params): (r: Result<Plan>)
    ensures r == Ok(Nothing) <==> operation !in ProductOperations
    ensures r.Err? ==> r.msg == MissingParam
    ensures r.Ok? ==> NoBodyOnRead(r.value)
    ensures r.Ok? ==> !r.value.FirstItem?
  {
    if operation == "get" then
      var productId :- Param(p, "productId");
      Ok(Plain(GET, PathOf("/products/", productId), map[]))
    else if operation == "getCourses" then
      var productId :- Param(p, "productId");
      GetMany(p, PathOf("/products/", productId) + "/courses", Fixed(map[]))
    else if operation == "getAll" then
      GetMany(p, "/products", ReadFilters)
    else if operation == "getPrices" then
      var productId :- Param(p, "productId");
      Ok(Plain(GET, PathOf("/products/", productId) + "/prices", map[]))
    else Ok(Nothing)
  }

  /** The operations the order branch handles. */
  const OrderOperations: set<string> := {"createExternal", "get", "getAll", "refund"}

  function OrderPlan(operation: string, p: Params): (r: Result<Plan>)
    ensures r == Ok(Nothing) <==> operation !in OrderOperations
    ensures r.Err? ==> r.msg == MissingParam
    ensures r.Ok? ==> NoBodyOnRead(r.value)
    ensures r.Ok? ==> !r.value.FirstItem?
  {
    if operation == "createExternal" then
      var userId :- Param(p, "userId");
      var productId :- Param(p, "productId");
      var paymentProvider :- Param(p, "paymentProvider");
      var additional :- Collection(p, "additionalFields");
      Ok(Plain(POST, "/orders",
               Spread(map["user_id" := IntOf(userId), "product_id" := IntOf(productId),
                          "payment_provider" := paymentProvider], additional)))
    else if operation == "get" then
      var orderId :- Param(p, "orderId");
      Ok(Plain(GET, PathOf("/orders/", orderId), map[]))
    else if operation == "getAll" then
      GetMany(p, "/orders", ReadFilters)
    else if operation == "refund" then
      var orderId :- Param(p, "orderId");
      Ok(Plain(POST, PathOf("/orders/", orderId) + "/refund", map[]))
    else Ok(Nothing)
  }

  /** Moves a truthy id list `key` from the remaining fields into the body,
      parsed into integers: the `if (fields.key) { body.key = ...; delete
      fields.key; }` step of the create branches. */
  function MoveIds(body: Obj, rest: Obj, key: string, expr: string): (r: Result<(Obj, Obj)>)
    ensures !Given(Field(rest, key)) ==> r == Ok((body, rest))
    ensures Given(Field(rest, key)) && rest[key].JStr? ==>
              r == Ok((body[key := JArr(IdValues(Text.ParseIdList(rest[key].s)))], rest - {key}))
    ensures Given(Field(rest, key)) && !rest[key].JStr? ==> r == Err(NotSplittable(expr))
  {
    if Given(Field(rest, key)) then
      var ids :- IdList(rest[key], expr);
      Ok((body[key := ids], rest - {key}))
    else Ok((body, rest))
  }

  /** The body of a promotion create: `{name, discount_type,
      discount_amount}`, then a truthy `product_ids` parsed into integers and
      removed from the additional fields, then the remaining additional fields
      assigned over the body. */
  function PromotionBody(name: Json, discountType: Json, discountAmount: Json, additional: Obj): Result<Obj> {
    var body := map["name" := name, "discount_type" := discountType, "discount_amount" := discountAmount];
    var (body, rest) :- MoveIds(body, additional, "product_ids", "additionalFields.product_ids");
    Ok(Spread(body, rest))
  }

  /** The body of a promotion update: the update fields with a truthy
      `product_ids` parsed into integers in place. */
  function PromotionUpdate(updateFields: Obj): Result<Obj> {
    if Given(Field(updateFields, "product_ids")) then
      var ids :- IdList(updateFields["product_ids"], "updateFields.product_ids");
      Ok(updateFields["product_ids" := ids])
    else Ok(updateFields)
  }

  /** The operations the promotion branch handles. */
  const PromotionOperations: set<string> := {"create", "delete", "get", "getAll", "update"}

  /** What a promotion branch can throw. */
  const PromotionThrows: set<string> :=
    {MissingParam, NotSplittable("additionalFields.product_ids"), NotSplittable("updateFields.product_ids")}

  function PromotionPlan(operation: string, p: Params): (r: Result<Plan>)
    ensures r == Ok(Nothing) <==> operation !in PromotionOperations
    ensures r.Err? ==> r.msg in PromotionThrows
    ensures r.Ok? ==> NoBodyOnRead(r.value)
    ensures r.Ok? ==> !r.value.FirstItem?
  {
    if operation == "create" then
      var name :- Param(p, "name");
      var discountType :- Param(p, "discountType");
      var discountAmount :- Param(p, "discountAmount");
      var additional :- Collection(p, "additionalFields");
      var body :- PromotionBody(name, discountType, discountAmount, additional);
      Ok(Plain(POST, "/promotions", body))
    else if operation == "delete" then
      var promotionId :- Param(p, "promotionId");
      Ok(Plain(DELETE, PathOf("/promotions/", promotionId), map[]))
    else if operation == "get" then
      var promotionId :- Param(p, "promotionId");
      Ok(Plain(GET, PathOf("/promotions/", promotionId), map[]))
    else if operation == "getAll" then
      GetMany(p, "/promotions", Fixed(map[]))
    else if operation == "update" then
      var promotionId :- Param(p, "promotionId");
      var updateFields :- Collection(p, "updateFields");
      var body :- PromotionUpdate(updateFields);
      Ok(Plain(PUT, PathOf("/promotions/", promotionId), body))
    else Ok(Nothing)
  }

  /** The operations the coupon branch handles. */
  const CouponOperations: set<string> := {"create", "delete", "get", "getAll", "update", "validate"}

  function CouponPlan(operation: string, p: Params): (r: Result<Plan>)
    ensures r == Ok(Nothing) <==> operation !in CouponOperations
    ensures r.Err? ==> r.msg == MissingParam
    ensures r.Ok? ==> NoBodyOnRead(r.value)
    ensures r.Ok? ==> !r.value.FirstItem?
  {
    if operation == "create" then
      var code :- Param(p, "code");
      var promotionId :- Param(p, "promotionId");
      var additional :- Collection(p, "additionalFields");
      Ok(Plain(POST, "/coupons", Spread(map["code" := code, "promotion_id" := IntOf(promotionId)], additional)))
    else if operation == "delete" then
      var couponId :- Param(p, "couponId");
      Ok(Plain(DELETE, PathOf("/coupons/", couponId), map[]))
    else if operation == "get" then
      var couponId :- Param(p, "couponId");
      Ok(Plain(GET, PathOf("/coupons/", couponId), map[]))
    else if operation == "getAll" then
      GetMany(p, "/coupons", ReadFilters)
    else if operation == "update" then
      var couponId :- Param(p, "couponId");
      var updateFields :- Collection(p, "updateFields");
      Ok(Plain(PUT, PathOf("/coupons/", couponId), updateFields))
    else if operation == "validate" then
      var couponCode :- Param(p, "couponCode");
      var productId :- Param(p, "productId");
      Ok(Send(Call(GET, "/coupons/validate", map[], map["code" := couponCode, "product_id" := productId])))
    else Ok(Nothing)
  }

  /** What a group branch can throw. */
  const GroupThrows: set<string> :=
    {MissingParam, NotSplittable("userIds"), NotSplittable("additionalFields.user_ids"),
     NotSplittable("additionalFields.group_analyst_ids")}

  /** The body of a group create: `{name}`, then truthy `user_ids` and
      `group_analyst_ids` parsed into integers and removed from the
      additional fields, then the remaining additional fields assigned over
      the body. */
  function GroupBody(name: Json, additional: Obj): Result<Obj> {
    var (body, rest) :- MoveIds(map["name" := name], additional, "user_ids", "additionalFields.user_ids");
    var (body, rest) :- MoveIds(body, rest, "group_analyst_ids", "additionalFields.group_analyst_ids");
    Ok(Spread(body, rest))
  }

  /** The operations the group branch handles. */
  const GroupOperations: set<string> := {"addUsers", "create", "get", "getAnalysts", "getAll", "removeUser"}

  function GroupPlan(operation: string, p: Params): (r: Result<Plan>)
    ensures r == Ok(Nothing) <==> operation !in GroupOperations
    ensures r.Err? ==> r.msg in GroupThrows
    ensures r.Ok? ==> NoBodyOnRead(r.value)
    ensures r.Ok? ==> !r.value.FirstItem?
  {
    if operation == "addUsers" then
      var groupId :- Param(p, "groupId");
      var userIds :- Param(p, "userIds");
      var ids :- IdList(userIds, "userIds");
      Ok(Plain(POST, PathOf("/groups/", groupId) + "/users", map["user_ids" := ids]))
    else if operation == "create" then
      var name :- Param(p, "name");
      var additional :- Collection(p, "additionalFields");
      var body :- GroupBody(name, additional);
      Ok(Plain(POST, "/groups", body))
    else if operation == "get" then
      var groupId :- Param(p, "groupId");
      Ok(Plain(GET, PathOf("/groups/", groupId), map[]))
    else if operation == "getAnalysts" then
      var groupId :- Param(p, "groupId");
      GetMany(p, PathOf("/groups/", groupId) + "/analysts", Fixed(map[]))
    else if operation == "getAll" then
      GetMany(p, "/groups", Fixed(map[]))
    else if operation == "removeUser" then
      var groupId :- Param(p, "groupId");
      var userId :- Param(p, "userId");
      Ok(Plain(DELETE, PathOf("/groups/", groupId) + PathOf("/users/", userId), map[]))
    else Ok(Nothing)
  }

  /** The operations the webhook branch handles. */
  const WebhookOperations: set<string> := {"create", "delete", "getAll", "update"}

  function WebhookPlan(operation: string, p: Params): (r: Result<Plan>)
    ensures r == Ok(Nothing) <==> operation !in WebhookOperations
    ensures r.Err? ==> r.msg == MissingParam
    ensures r.Ok? ==> NoBodyOnRead(r.value)
    ensures r.Ok? ==> !r.value.FirstItem?
  {
    if operation == "create" then
      var topic :- Param(p, "topic");
      var targetUrl :- Param(p, "targetUrl");
      Ok(Plain(POST, "/webhooks", map["topic" := topic, "target_url" := targetUrl]))
    else if operation == "delete" then
      var webhookId :- Param(p, "webhookId");
      Ok(Plain(DELETE, PathOf("/webhooks/", webhookId), map[]))
    else if operation == "getAll" then
      GetMany(p, "/webhooks", Fixed(map[]))
    else if operation == "update" then
      var webhookId :- Param(p, "webhookId");
      var updateFields :- Collection(p, "updateFields");
      Ok(Plain(PUT, PathOf("/webhooks/", webhookId), updateFields))
    else Ok(Nothing)
  }

  /** The operations each resource's branch handles; none for a resource
      without a branch. */
  function Operations(resource: string): set<string> {
    if resource == "user" then UserOperations
    else if resource == "course" then CourseOperations
    else if resource == "enrollment" then EnrollmentOperations
    else if resource == "product" then ProductOperations
    else if resource == "order" then OrderOperations
    else if resource == "promotion" then PromotionOperations
    else if resource == "coupon" then CouponOperations
    else if resource == "group" then GroupOperations
    else if resource == "webhook" then WebhookOperations
    else {}
  }

  /** The plan of one record: the branch of its resource, or nothing when the
      resource is none of the nine. Nothing is planned exactly for an
      operation the resource's branch does not handle; every throw is a
      missing parameter or an id list that is not text; reads and deletes
      carry no body; only `getByEmail` of a user takes the first item. */
  function PlanFor(resource: string, operation: string, p: Params): (r: Result<Plan>)
    ensures r == Ok(Nothing) <==> operation !in Operations(resource)
    ensures r.Err? ==> r.msg == MissingParam || r.msg in PromotionThrows || r.msg in GroupThrows
    ensures r.Ok? ==> NoBodyOnRead(r.value)
    ensures r.Ok? && r.value.FirstItem? ==> resource == "user" && operation == "getByEmail"
  {
    if resource == "user" then UserPlan(operation, p)
    else if resource == "course" then CoursePlan(operation, p)
    else if resource == "enrollment" then EnrollmentPlan(operation, p)
    else if resource == "product" then ProductPlan(operation, p)
    else if resource == "order" then OrderPlan(operation, p)
    else if resource == "promotion" then PromotionPlan(operation, p)
    else if resource == "coupon" then CouponPlan(operation, p)
    else if resource == "group" then GroupPlan(operation, p)
    else if resource == "webhook" then WebhookPlan(operation, p)
    else Ok(Nothing)
  }

  // ---------------------------------------------------------------------------
  // how the bodies are merged

  /** `PlanFor` hands the resources whose create bodies are merged below to
      their own plan builders. */
  lemma Dispatch(resource: string, operation: string, p: Params)
    ensures resource == "enrollment" ==> PlanFor(resource, operation, p) == EnrollmentPlan(operation, p)
    ensures resource == "order" ==> PlanFor(resource, operation, p) == OrderPlan(operation, p)
    ensures resource == "coupon" ==> PlanFor(resource, operation, p) == CouponPlan(operation, p)
  {
  }

  /** Enrollment create: the body holds `user_id` and `course_id` parsed as
      integers and every additional field; the additional fields are spread
      last, so they win where they name the same key. */
  lemma EnrollmentCreateBody(resource: string, operation: string, p: Params, additional: Obj)
    requires resource == "enrollment" && operation == "create"
    requires "userId" in p && "courseId" in p && "additionalFields" in p
    requires p["additionalFields"] == JObj(additional)
    ensures var r := PlanFor(resource, operation, p);
            && r.Ok? && r.value.Send?
            && r.value.call.verb == POST && r.value.call.endpoint == "/enrollments"
            && r.value.call.query == map[]
            && var body := r.value.call.body;
               && body.Keys == additional.Keys + {"user_id", "course_id"}
               && (forall k :: k in additional ==> body[k] == additional[k])
               && ("user_id" !in additional ==> body["user_id"] == IntOf(p["userId"]))
               && ("course_id" !in additional ==> body["course_id"] == IntOf(p["courseId"]))
  {
    var ids := map["user_id" := IntOf(p["userId"]), "course_id" := IntOf(p["courseId"])];
    var r := PlanFor(resource, operation, p);
    assert r == Ok(Plain(POST, "/enrollments", Spread(ids, additional))) by {
      Dispatch(resource, operation, p);
      EnrollmentCreateSends(p, additional);
    }
    SentBody(r, "/enrollments", ids, additional);
    assert ids.Keys == {"user_id", "course_id"};
  }

  /** Enrollments of one course or of one user, with `returnAll`: every page
      of `/enrollments` is fetched under a query holding only that id, as
      given, and `limit` is never read. */
  lemma EnrollmentsFixedQuery(resource: string, operation: string, p: Params)
    requires resource == "enrollment" && "returnAll" in p && Truthy(p["returnAll"])
    ensures operation == "getByCourse" && "courseId" in p ==>
              PlanFor(resource, operation, p) == Ok(EveryPage("/enrollments", map["course_id" := p["courseId"]]))
    ensures operation == "getByUser" && "userId" in p ==>
              PlanFor(resource, operation, p) == Ok(EveryPage("/enrollments", map["user_id" := p["userId"]]))
  {
    Dispatch(resource, operation, p);
    if operation == "getByCourse" && "courseId" in p {
      var q := map["course_id" := p["courseId"]];
      assert EnrollmentPlan(operation, p) == GetMany(p, "/enrollments", Fixed(q));
      GetManyEveryPage(p, "/enrollments", Fixed(q), q);
    }
    if operation == "getByUser" && "userId" in p {
      var q := map["user_id" := p["userId"]];
      assert EnrollmentPlan(operation, p) == GetMany(p, "/enrollments", Fixed(q));
      GetManyEveryPage(p, "/enrollments", Fixed(q), q);
    }
  }

  /** A create that sends `base` with the additional fields spread over it. */
  lemma SentBody(r: Result<Plan>, endpoint: string, base: Obj, additional: Obj)
    requires r == Ok(Plain(POST, endpoint, Spread(base, additional)))
    ensures r == Ok(Send(Call(POST, endpoint, r.value.call.body, map[])))
    ensures r.value.call.body.Keys == additional.Keys + base.Keys
    ensures forall k :: k in additional ==> r.value.call.body[k] == additional[k]
    ensures forall k :: k in base && k !in additional ==> r.value.call.body[k] == base[k]
  {
  }

  /** User create: `{email, ...additionalFields}`, so an `email` among the
      additional fields replaces the required one. */
  lemma UserCreateBody(resource: string, operation: string, p: Params, additional: Obj)
    requires resource == "user" && operation == "create"
    requires "email" in p && "additionalFields" in p && p["additionalFields"] == JObj(additional)
    ensures var r := PlanFor(resource, operation, p);
            && r == Ok(Send(Call(POST, "/users", r.value.call.body, map[])))
            && r.value.call.body.Keys == additional.Keys + {"email"}
            && r.value.call.body["email"] == (if "email" in additional then additional["email"] else p["email"])
            && forall k :: k in additional ==> r.value.call.body[k] == additional[k]
  {
    assert PlanFor(resource, operation, p) == UserPlan(operation, p);
    assert UserPlan(operation, p) == Ok(Plain(POST, "/users", Spread(map["email" := p["email"]], additional)));
  }

  /** External order create: `user_id` and `product_id` parsed as integers
      and `payment_provider`, then every additional field spread over them. */
  lemma OrderCreateBody(resource: string, operation: string, p: Params, additional: Obj)
    requires resource == "order" && operation == "createExternal"
    requires "userId" in p && "productId" in p && "paymentProvider" in p
    requires "additionalFields" in p && p["additionalFields"] == JObj(additional)
    ensures var r := PlanFor(resource, operation, p);
            && r == Ok(Send(Call(POST, "/orders", r.value.call.body, map[])))
            && var body := r.value.call.body;
               && body.Keys == additional.Keys + {"user_id", "product_id", "payment_provider"}
               && (forall k :: k in additional ==> body[k] == additional[k])
               && ("user_id" !in additional ==> body["user_id"] == IntOf(p["userId"]))
               && ("product_id" !in additional ==> body["product_id"] == IntOf(p["productId"]))
               && ("payment_provider" !in additional ==> body["payment_provider"] == p["paymentProvider"])
  {
    Dispatch(resource, operation, p);
    OrderCreatePlan(p, additional);
    OrderBody(PlanFor(resource, operation, p), p, additional);
  }

  lemma OrderBody(r: Result<Plan>, p: Params, additional: Obj)
    requires "userId" in p && "productId" in p && "paymentProvider" in p
    requires r == Ok(Plain(POST, "/orders",
                Spread(map["user_id" := IntOf(p["userId"]), "product_id" := IntOf(p["productId"]),
                           "payment_provider" := p["paymentProvider"]], additional)))
    ensures && r == Ok(Send(Call(POST, "/orders", r.value.call.body, map[])))
            && var body := r.value.call.body;
               && body.Keys == additional.Keys + {"user_id", "product_id", "payment_provider"}
               && (forall k :: k in additional ==> body[k] == additional[k])
               && ("user_id" !in additional ==> body["user_id"] == IntOf(p["userId"]))
               && ("product_id" !in additional ==> body["product_id"] == IntOf(p["productId"]))
               && ("payment_provider" !in additional ==> body["payment_provider"] == p["paymentProvider"])
  {
    var base := map["user_id" := IntOf(p["userId"]), "product_id" := IntOf(p["productId"]),
                    "payment_provider" := p["paymentProvider"]];
    SentBody(r, "/orders", base, additional);
    assert base.Keys == {"user_id", "product_id", "payment_provider"};
  }

  lemma OrderCreatePlan(p: Params, additional: Obj)
    requires "userId" in p && "productId" in p && "paymentProvider" in p
    requires "additionalFields" in p && p["additionalFields"] == JObj(additional)
    ensures OrderPlan("createExternal", p) == Ok(Plain(POST, "/orders",
              Spread(map["user_id" := IntOf(p["userId"]), "product_id" := IntOf(p["productId"]),
                         "payment_provider" := p["paymentProvider"]], additional)))
  { }

  /** Coupon create: `code` and `promotion_id` parsed as an integer, then
      every additional field spread over them. */
  lemma CouponCreateBody(resource: string, operation: string, p: Params, additional: Obj)
    requires resource == "coupon" && operation == "create"
    requires "code" in p && "promotionId" in p
    requires "additionalFields" in p && p["additionalFields"] == JObj(additional)
    ensures var r := PlanFor(resource, operation, p);
            && r == Ok(Send(Call(POST, "/coupons", r.value.call.body, map[])))
            && var body := r.value.call.body;
               && body.Keys == additional.Keys + {"code", "promotion_id"}
               && (forall k :: k in additional ==> body[k] == additional[k])
               && ("code" !in additional ==> body["code"] == p["code"])
               && ("promotion_id" !in additional ==> body["promotion_id"] == IntOf(p["promotionId"]))
  {
    var base := map["code" := p["code"], "promotion_id" := IntOf(p["promotionId"])];
    var r := PlanFor(resource, operation, p);
    assert r == Ok(Plain(POST, "/coupons", Spread(base, additional))) by {
      Dispatch(resource, operation, p);
      CouponCreateSends(p, additional);
    }
    SentBody(r, "/coupons", base, additional);
    assert base.Keys == {"code", "promotion_id"};
  }

  lemma CouponCreateSends(p: Params, additional: Obj)
    requires "code" in p && "promotionId" in p
    requires "additionalFields" in p && p["additionalFields"] == JObj(additional)
    ensures CouponPlan("create", p) == Ok(Plain(POST, "/coupons",
              Spread(map["code" := p["code"], "promotion_id" := IntOf(p["promotionId"])], additional)))
  { }

  /** The resources `execute` has a branch for. */
  const Resources: set<string> :=
    {"user", "course", "enrollment", "product", "order", "promotion", "coupon", "group", "webhook"}

  /** A resource without a branch plans nothing: no request, and no
      parameter is read. */
  lemma UnknownResource(resource: string, operation: string, p: Params)
    requires resource !in Resources
    ensures PlanFor(resource, operation, p) == Ok(Nothing)
  {
  }

  /** A required parameter that cannot be read throws before any request is
      planned: the id of a single-record read, for every resource that has
      one. */
  lemma MissingIdThrows(resource: string, p: Params, name: string)
    requires (resource, name) in {("user", "userId"), ("course", "courseId"), ("enrollment", "enrollmentId"),
                                  ("product", "productId"), ("order", "orderId"), ("promotion", "promotionId"),
                                  ("coupon", "couponId"), ("group", "groupId")}
    requires name !in p
    ensures PlanFor(resource, "get", p) == Err(MissingParam)
  {
  }

  /** Enrollment create with numeric text ids sends those integers. */
  lemma EnrollmentCreateIds(p: Params, user: int, course: int)
    requires "userId" in p && p["userId"] == JStr(Text.Decimal(user))
    requires "courseId" in p && p["courseId"] == JStr(Text.Decimal(course))
    requires "additionalFields" in p && p["additionalFields"] == JObj(map[])
    ensures var r := EnrollmentPlan("create", p);
            && r.Ok? && r.value.Send?
            && r.value.call.body == map["user_id" := JNum(user), "course_id" := JNum(course)]
  {
    EnrollmentCreateSends(p, map[]);
    IntOfNumber(user);
    IntOfNumber(course);
    var ids := map["user_id" := IntOf(p["userId"]), "course_id" := IntOf(p["courseId"])];
    assert ids == map["user_id" := JNum(user), "course_id" := JNum(course)];
    assert Spread(ids, map[]) == ids;
  }

  lemma EnrollmentCreateSends(p: Params, additional: Obj)
    requires "userId" in p && "courseId" in p
    requires "additionalFields" in p && p["additionalFields"] == JObj(additional)
    ensures EnrollmentPlan("create", p) ==
            Ok(Plain(POST, "/enrollments",
                     Spread(map["user_id" := IntOf(p["userId"]), "course_id" := IntOf(p["courseId"])], additional)))
  {
  }

  /** Moving an id list and then assigning the remaining fields over the
      body: every key of either, the remaining fields winning, and the id
      list in its parsed form when it was truthy. */
  lemma MoveThenAssign(body: Obj, rest: Obj, key: string, expr: string)
    requires Given(Field(rest, key)) ==> rest[key].JStr?
    ensures var r := MoveIds(body, rest, key, expr);
            && r.Ok?
            && var out := Spread(r.value.0, r.value.1);
               && out.Keys == body.Keys + rest.Keys
               && (forall k :: k in rest && k != key ==> out[k] == rest[k])
               && (forall k :: k in body && k !in rest && k != key ==> out[k] == body[k])
               && (Given(Field(rest, key)) ==> out[key] == JArr(IdValues(Text.ParseIdList(rest[key].s))))
               && (key in rest && !Truthy(rest[key]) ==> out[key] == rest[key])
  {
    if Given(Field(rest, key)) {
      var ids := JArr(IdValues(Text.ParseIdList(rest[key].s)));
      assert MoveIds(body, rest, key, expr) == Ok((body[key := ids], rest - {key}));
      var out := Spread(body[key := ids], rest - {key});
      assert out[key] == ids;
    } else {
      assert MoveIds(body, rest, key, expr) == Ok((body, rest));
    }
  }

  /** Promotion create, when `product_ids` is a string or falsy: the body
      holds every additional field but a truthy `product_ids`, which is
      replaced by its parsed integers, so the raw text never reaches the
      vendor; `name`, `discount_type` and `discount_amount` come from the
      parameters unless an additional field of the same name overrides them. */
  lemma PromotionCreateBody(name: Json, discountType: Json, discountAmount: Json, additional: Obj)
    requires Given(Field(additional, "product_ids")) ==> additional["product_ids"].JStr?
    ensures var r := PromotionBody(name, discountType, discountAmount, additional);
            && r.Ok?
            && r.value.Keys == additional.Keys + {"name", "discount_type", "discount_amount"}
            && (forall k :: k in additional && k != "product_ids" ==> r.value[k] == additional[k])
            && ("name" !in additional ==> r.value["name"] == name)
            && ("discount_type" !in additional ==> r.value["discount_type"] == discountType)
            && ("discount_amount" !in additional ==> r.value["discount_amount"] == discountAmount)
            && (Given(Field(additional, "product_ids")) ==>
                  r.value["product_ids"] == JArr(IdValues(Text.ParseIdList(additional["product_ids"].s))))
            && ("product_ids" in additional && !Truthy(additional["product_ids"]) ==>
                  r.value["product_ids"] == additional["product_ids"])
  {
    var body := map["name" := name, "discount_type" := discountType, "discount_amount" := discountAmount];
    assert body.Keys == {"name", "discount_type", "discount_amount"};
    assert "name" != "product_ids" && "discount_type" != "product_ids" && "discount_amount" != "product_ids";
    MoveThenAssign(body, additional, "product_ids", "additionalFields.product_ids");
    var m := MoveIds(body, additional, "product_ids", "additionalFields.product_ids");
    assert PromotionBody(name, discountType, discountAmount, additional) == Ok(Spread(m.value.0, m.value.1));
  }

  /** Promotion create with a truthy `product_ids` that is not a string
      throws: `split` is not a function of it. */
  lemma PromotionCreateRejects(name: Json, discountType: Json, discountAmount: Json, additional: Obj)
    requires Given(Field(additional, "product_ids")) && !additional["product_ids"].JStr?
    ensures PromotionBody(name, discountType, discountAmount, additional)
            == Err(NotSplittable("additionalFields.product_ids"))
  {
  }

  /** Promotion update: the same keys as the update fields; a truthy string
      `product_ids` becomes its parsed integers, every other field is sent
      as given. */
  lemma PromotionUpdateBody(updateFields: Obj)
    requires Given(Field(updateFields, "product_ids")) ==> updateFields["product_ids"].JStr?
    ensures var r := PromotionUpdate(updateFields);
            && r.Ok?
            && r.value.Keys == updateFields.Keys
            && (forall k :: k in updateFields && k != "product_ids" ==> r.value[k] == updateFields[k])
            && (Given(Field(updateFields, "product_ids")) ==>
                  r.value["product_ids"] == JArr(IdValues(Text.ParseIdList(updateFields["product_ids"].s))))
            && ("product_ids" in updateFields && !Truthy(updateFields["product_ids"]) ==>
                  r.value["product_ids"] == updateFields["product_ids"])
  {
  }

  /** Moving two id lists, one after the other, and then assigning the
      remaining fields over the body. */
  lemma MoveTwiceThenAssign(body: Obj, rest: Obj, k1: string, e1: string, k2: string, e2: string)
    requires k1 != k2 && k1 !in body && k2 !in body
    requires Given(Field(rest, k1)) ==> rest[k1].JStr?
    requires Given(Field(rest, k2)) ==> rest[k2].JStr?
    ensures var r1 := MoveIds(body, rest, k1, e1);
            && r1.Ok?
            && var r2 := MoveIds(r1.value.0, r1.value.1, k2, e2);
            && r2.Ok?
            && var out := Spread(r2.value.0, r2.value.1);
               && out.Keys == body.Keys + rest.Keys
               && (forall k :: k in rest && k != k1 && k != k2 ==> out[k] == rest[k])
               && (forall k :: k in body && k !in rest ==> out[k] == body[k])
               && (Given(Field(rest, k1)) ==> out[k1] == JArr(IdValues(Text.ParseIdList(rest[k1].s))))
               && (Given(Field(rest, k2)) ==> out[k2] == JArr(IdValues(Text.ParseIdList(rest[k2].s))))
               && (k1 in rest && !Truthy(rest[k1]) ==> out[k1] == rest[k1])
               && (k2 in rest && !Truthy(rest[k2]) ==> out[k2] == rest[k2])
  {
    var r1 := MoveIds(body, rest, k1, e1);
    var b1, rest1 := r1.value.0, r1.value.1;
    FirstMove(body, rest, k1, e1);
    assert Field(rest1, k2) == Field(rest, k2);
    MoveThenAssign(b1, rest1, k2, e2);
    var out := Spread(MoveIds(b1, rest1, k2, e2).value.0, MoveIds(b1, rest1, k2, e2).value.1);
    forall k | k in rest && k != k2 && (k != k1 || !Truthy(rest[k1]))
      ensures out[k] == rest[k]
    {
      assert k in rest1 && rest1[k] == rest[k];
    }
    forall k | k in body && k !in rest
      ensures out[k] == body[k]
    {
      assert k in b1 && b1[k] == body[k] && k !in rest1;
    }
  }

  /** The first of two moves, stated key by key. */
  lemma FirstMove(body: Obj, rest: Obj, key: string, expr: string)
    requires key !in body
    requires Given(Field(rest, key)) ==> rest[key].JStr?
    ensures var r := MoveIds(body, rest, key, expr);
            && r.Ok?
            && r.value.0.Keys + r.value.1.Keys == body.Keys + rest.Keys
            && (forall k :: k in rest && k != key ==> k in r.value.1 && r.value.1[k] == rest[k])
            && (forall k :: k in body ==> k in r.value.0 && r.value.0[k] == body[k])
            && (forall k :: k in r.value.1 ==> k in rest)
            && (Given(Field(rest, key)) ==> key !in r.value.1 && r.value.0[key] == JArr(IdValues(Text.ParseIdList(rest[key].s))))
            && (!Given(Field(rest, key)) ==> r.value.0 == body)
  {
  }

  /** Group create, when the id lists are strings or falsy: `name`, every
      additional field, and each truthy id list replaced by its parsed
      integers, the remaining additional fields winning over `name`. */
  lemma GroupCreateBody(name: Json, additional: Obj)
    requires Given(Field(additional, "user_ids")) ==> additional["user_ids"].JStr?
    requires Given(Field(additional, "group_analyst_ids")) ==> additional["group_analyst_ids"].JStr?
    ensures var r := GroupBody(name, additional);
            && r.Ok?
            && r.value.Keys == additional.Keys + {"name"}
            && (forall k :: k in additional && k != "user_ids" && k != "group_analyst_ids" ==>
                  r.value[k] == additional[k])
            && ("name" !in additional ==> r.value["name"] == name)
            && (Given(Field(additional, "user_ids")) ==>
                  r.value["user_ids"] == JArr(IdValues(Text.ParseIdList(additional["user_ids"].s))))
            && (Given(Field(additional, "group_analyst_ids")) ==>
                  r.value["group_analyst_ids"] ==
                    JArr(IdValues(Text.ParseIdList(additional["group_analyst_ids"].s))))
            && ("user_ids" in additional && !Truthy(additional["user_ids"]) ==>
                  r.value["user_ids"] == additional["user_ids"])
            && ("group_analyst_ids" in additional && !Truthy(additional["group_analyst_ids"]) ==>
                  r.value["group_analyst_ids"] == additional["group_analyst_ids"])
  {
    var base := map["name" := name];
    assert "name" != "user_ids" && "name" != "group_analyst_ids" && "user_ids" != "group_analyst_ids";
    MoveTwiceThenAssign(base, additional, "user_ids", "additionalFields.user_ids",
                        "group_analyst_ids", "additionalFields.group_analyst_ids");
    var r1 := MoveIds(base, additional, "user_ids", "additionalFields.user_ids");
    var r2 := MoveIds(r1.value.0, r1.value.1, "group_analyst_ids", "additionalFields.group_analyst_ids");
    var out := Spread(r2.value.0, r2.value.1);
    assert GroupBody(name, additional) == Ok(out);
    assert base.Keys == {"name"} && base["name"] == name;
    assert out.Keys == additional.Keys + {"name"};
    assert "name" in base && ("name" !in additional ==> out["name"] == name);
  }

  /** Adding users to a group: " 1, 2,3 " sends `user_ids` [1, 2, 3]. */
  lemma AddUsersExample(p: Params, text: string)
    requires text == " 1, 2,3 "
    requires "groupId" in p && "userIds" in p && p["userIds"] == JStr(text)
    ensures var r := GroupPlan("addUsers", p);
            && r.Ok? && r.value.Send?
            && r.value.call.body == map["user_ids" := JArr([JNum(1), JNum(2), JNum(3)])]
  {
    AddUsersBody(p);
    ExampleIds(text);
  }

  lemma ExampleIds(text: string)
    requires text == " 1, 2,3 "
    ensures JArr(IdValues(Text.ParseIdList(text))) == JArr([JNum(1), JNum(2), JNum(3)])
  {
    Text.IdListExample(text);
    var parsed := [Some(1), Some(2), Some(3)];
    assert IdValues(parsed) == [JNum(1), JNum(2), JNum(3)];
  }

  /** Adding users to a group posts the parsed id list, in order, to the
      group's `users` path; a `userIds` that is not text throws. */
  lemma AddUsersBody(p: Params)
    requires "groupId" in p && "userIds" in p
    ensures var r := GroupPlan("addUsers", p);
            && (p["userIds"].JStr? ==>
                  && r == Ok(Send(Call(POST, PathOf("/groups/", p["groupId"]) + "/users",
                                       map["user_ids" := JArr(IdValues(Text.ParseIdList(p["userIds"].s)))], map[]))))
            && (!p["userIds"].JStr? ==> r == Err(NotSplittable("userIds")))
  {
  }
}

=== FILE: requests.dfy ===
/** The request helper of nodes/Thinkific/GenericFunctions.ts: building the
    transport options for one authenticated call, and turning a failed call
    into the message of the error the node throws. The transport itself is an
    oracle: every call is answered by a `Reply` supplied from outside. */
module Requests {
  import opened Wrappers
  import opened Json
  import Text

  const BaseUrl: string := "https://api.thinkific.com/api/public/v1"
  const UnknownError: string := "An unknown error occurred"

  datatype Method = GET | POST | PUT | DELETE

  /** The two secrets of the `thinkificApi` credential. */
  datatype Credentials = Credentials(apiKey: string, subdomain: string)

  /** The arguments of one `thinkificApiRequest` call; an omitted body or
      query is the empty object, its default. */
  datatype Call = Call(verb: Method, endpoint: string, body: Obj, query: Obj)

  /** The options handed to the host's HTTP transport. */
  datatype Options = Options(
    verb: Method,
    uri: string,
    headers: map<string, string>,
    json: bool,
    body: Option<Obj>,
    qs: Option<Obj>)

  /** The options `thinkificApiRequest` builds: the endpoint appended to the
      fixed base URL, the credential headers, and a body or query string only
      when it has at least one key. */
  function BuildOptions(cred: Credentials, call: Call): (o: Options)
    ensures o.verb == call.verb && o.uri == BaseUrl + call.endpoint && o.json
    ensures o.headers.Keys == {"X-Auth-API-Key", "X-Auth-Subdomain", "Content-Type"}
    ensures o.headers["X-Auth-API-Key"] == cred.apiKey
    ensures o.headers["X-Auth-Subdomain"] == cred.subdomain
    ensures o.headers["Content-Type"] == "application/json"
    ensures o.body.Some? <==> |call.body| > 0
    ensures o.qs.Some? <==> |call.query| > 0
    ensures o.body.Some? ==> o.body.value == call.body
    ensures o.qs.Some? ==> o.qs.value == call.query
  {
    Options(
      call.verb,
      BaseUrl + call.endpoint,
      map["X-Auth-API-Key" := cred.apiKey,
          "X-Auth-Subdomain" := cred.subdomain,
          "Content-Type" := "application/json"],
      true,
      if |call.body| > 0 then Some(call.body) else None,
      if |call.query| > 0 then Some(call.query) else None)
  }

  /** Reads the call back from transport options, an omitted body or query
      being the empty object. */
  function CallOf(o: Options): Call
    requires |BaseUrl| <= |o.uri| && o.uri[..|BaseUrl|] == BaseUrl
  {
    Call(o.verb, o.uri[|BaseUrl|..], o.body.GetOr(map[]), o.qs.GetOr(map[]))
  }

  /** Omitting an empty body or query loses nothing: the call can be read back
      from the options exactly. */
  lemma OptionsRoundTrip(cred: Credentials, call: Call)
    ensures var o := BuildOptions(cred, call);
            |BaseUrl| <= |o.uri| && o.uri[..|BaseUrl|] == BaseUrl && CallOf(o) == call
  {
    var o := BuildOptions(cred, call);
    assert o.uri[..|BaseUrl|] == BaseUrl;
    assert o.uri[|BaseUrl|..] == call.endpoint;
    assert |call.body| == 0 ==> call.body == map[];
    assert |call.query| == 0 ==> call.query == map[];
  }

  // ---------------------------------------------------------------------------
  // errors

  /** What a failed transport call exposes to the error handler: the parsed
      response body, if any, and the transport's own message (empty when it
      has none). */
  datatype TransportError = TransportError(responseBody: Option<Json>, message: string)

  /** The answer of the oracle to one call. */
  datatype Reply = Answer(body: Json) | Fault(error: TransportError)

  /** `getErrorMessage`: the vendor envelope's `error`, followed by its `errors`
      joined with ", " when that is an array; otherwise the transport message;
      otherwise a fixed text. */
  function ErrorMessage(e: TransportError): (m: string)
    ensures Given(e.responseBody) && Given(Prop(e.responseBody.value, "error")) ==>
              var error := Str(Prop(e.responseBody.value, "error").value);
              |error| <= |m| && m[..|error|] == error
    ensures !(Given(e.responseBody) && Given(Prop(e.responseBody.value, "error"))) ==> |m| > 0
  {
    var body := e.responseBody;
    if Given(body) && Given(Prop(body.value, "error")) then
      var error := Prop(body.value, "error").value;
      match Prop(body.value, "errors")
      case Some(JArr(errors)) => Str(error) + ": " + Text.Join(ElemStrs(errors), ", ")
      case _ => Str(error)
    else if |e.message| > 0 then e.message
    else UnknownError
  }

  /** The vendor's error envelope `{error, errors?}`. */
  function Envelope(error: string, errors: Option<seq<string>>): Json {
    match errors
    case Some(es) => JObj(map["error" := JStr(error), "errors" := JArr(Strings(es))])
    case None => JObj(map["error" := JStr(error)])
  }

  function Strings(ss: seq<string>): (r: seq<Json>)
    ensures |r| == |ss| && forall i :: 0 <= i < |ss| ==> r[i] == JStr(ss[i])
  {
    if |ss| == 0 then [] else [JStr(ss[0])] + Strings(ss[1..])
  }

  lemma {:induction false} ElemStrsStrings(ss: seq<string>)
    ensures ElemStrs(Strings(ss)) == ss
  {
    if |ss| > 0 {
      assert Strings(ss)[1..] == Strings(ss[1..]);
      ElemStrsStrings(ss[1..]);
    }
  }

  /** A vendor envelope with a non-empty `error` yields that error, followed
      by ": " and the `errors` joined with ", " when they are given; the
      transport message is then never used. */
  lemma EnvelopeMessage(error: string, errors: Option<seq<string>>, message: string)
    requires |error| > 0
    ensures ErrorMessage(TransportError(Some(Envelope(error, errors)), message)) ==
      match errors
      case Some(es) => error + ": " + Text.Join(es, ", ")
      case None => error
  {
    if errors.Some? {
      ElemStrsStrings(errors.value);
    }
  }

  /** Any body whose `error` is a non-empty string: the message is that
      error, followed by ": " and the joined `errors` only when `errors` is
      an array; an `errors` of any other kind is ignored. */
  lemma StringErrorMessage(body: Json, error: string, message: string)
    requires Prop(body, "error") == Some(JStr(error)) && |error| > 0
    ensures ErrorMessage(TransportError(Some(body), message)) ==
      match Prop(body, "errors")
      case Some(JArr(errors)) => error + ": " + Text.Join(ElemStrs(errors), ", ")
      case _ => error
  {
  }

  /** Without a body whose `error` is truthy, the message is the transport's
      own, or the fixed text when that is empty. */
  lemma FallbackMessage(body: Option<Json>, message: string)
    requires !(Given(body) && Given(Prop(body.value, "error")))
    ensures ErrorMessage(TransportError(body, message)) ==
            if |message| > 0 then message else UnknownError
  {
  }

  /** An example: `{error: "Invalid", errors: ["Email taken",
      "Name required"]}` gives "Invalid: Email taken, Name required". */
  lemma ErrorMessageExample(error: string, errors: seq<string>, message: string)
    requires error == "Invalid" && errors == ["Email taken", "Name required"]
    ensures ErrorMessage(TransportError(Some(Envelope(error, Some(errors))), message))
            == "Invalid: Email taken, Name required"
  {
    EnvelopeMessage(error, Some(errors), message);
    ExampleText();
  }

  lemma ExampleText()
    ensures "Invalid" + ": " + Text.Join(["Email taken", "Name required"], ", ")
            == "Invalid: Email taken, Name required"
  {
    assert Text.Join(["Name required"], ", ") == "Name required";
    assert Text.Join(["Email taken", "Name required"], ", ") == "Email taken" + ", " + "Name required";
    assert "Invalid" + ": " == "Invalid: ";
    assert "Invalid: " + "Email taken" == "Invalid: Email taken";
    assert "Invalid: Email taken" + ", " == "Invalid: Email taken, ";
    assert "Invalid: Email taken, " + "Name required" == "Invalid: Email taken, Name required";
  }

  /** One call through the request helper: the parsed response, or the thrown
      error carrying the extracted message. */
  function Invoke(reply: Reply): (r: Result<Json>)
    ensures reply.Answer? <==> r.Ok?
    ensures reply.Answer? ==> r.value == reply.body
    ensures reply.Fault? ==> r.msg == ErrorMessage(reply.error)
  {
    match reply
    case Answer(body) => Ok(body)
    case Fault(e) => Err(ErrorMessage(e))
  }
}

=== FILE: text.dfy ===
/** The JavaScript string primitives the node relies on: `String.prototype.trim`,
    `String.prototype.split` on a one-character separator, `Array.prototype.join`,
    `parseInt(s, 10)` and the decimal rendering of an integer. */
module Text {
  import opened Wrappers

  /** The characters `trim` and `parseInt` skip: WhiteSpace and LineTerminator
      of ECMAScript. */
  predicate IsSpace(c: char) {
    || c == ' ' || c == '\t' || c == '\n' || c == '\r'
    || c == '\U{000B}' || c == '\U{000C}' || c == '\U{00A0}' || c == '\U{1680}'
    || ('\U{2000}' <= c <= '\U{200A}')
    || c == '\U{2028}' || c == '\U{2029}' || c == '\U{202F}' || c == '\U{205F}'
    || c == '\U{3000}' || c == '\U{FEFF}'
  }

  predicate IsDigit(c: char) {
    '0' <= c <= '9'
  }

  predicate AllDigits(s: string) {
    forall i :: 0 <= i < |s| ==> IsDigit(s[i])
  }

  // ---------------------------------------------------------------------------
  // trim

  predicate AllSpace(s: string) {
    forall i :: 0 <= i < |s| ==> IsSpace(s[i])
  }

  /** A string that is empty or neither starts nor ends with white space. */
  predicate Trimmed(s: string) {
    |s| == 0 || (!IsSpace(s[0]) && !IsSpace(s[|s| - 1]))
  }

  /** `s.trimStart()`. */
  function TrimStart(s: string): (r: string)
    ensures |r| <= |s|
    ensures |r| > 0 ==> !IsSpace(r[0])
  {
    if |s| > 0 && IsSpace(s[0]) then TrimStart(s[1..]) else s
  }

  /** `s.trimEnd()`. */
  function TrimEnd(s: string): (r: string)
    ensures |r| <= |s|
    ensures |r| > 0 ==> !IsSpace(r[|r| - 1])
  {
    if |s| > 0 && IsSpace(s[|s| - 1]) then TrimEnd(s[..|s| - 1]) else s
  }

  /** `s.trim()`: neither starts nor ends with white space. */
  function Trim(s: string): (r: string)
    ensures Trimmed(r)
  {
    var t := TrimStart(s);
    var r := TrimEnd(t);
    assert |r| > 0 ==> r[0] == t[0] by {
      TrimEndPrefix(t);
    }
    r
  }

  lemma {:induction false} TrimEndPrefix(s: string)
    ensures TrimEnd(s) == s[..|TrimEnd(s)|]
  {
    if |s| > 0 && IsSpace(s[|s| - 1]) {
      TrimEndPrefix(s[..|s| - 1]);
    }
  }

  lemma {:induction false} TrimStartSkips(p: string, t: string)
    requires AllSpace(p)
    requires |t| == 0 || !IsSpace(t[0])
    ensures TrimStart(p + t) == t
  {
    if |p| > 0 {
      assert (p + t)[1..] == p[1..] + t;
      TrimStartSkips(p[1..], t);
    } else {
      assert p + t == t;
    }
  }

  lemma {:induction false} TrimEndSkips(t: string, q: string)
    requires AllSpace(q)
    requires |t| == 0 || !IsSpace(t[|t| - 1])
    ensures TrimEnd(t + q) == t
  {
    if |q| > 0 {
      assert (t + q)[..|t + q| - 1] == t + q[..|q| - 1];
      TrimEndSkips(t, q[..|q| - 1]);
    } else {
      assert t + q == t;
    }
  }

  /** `trim` removes exactly the white space around a trimmed core: whatever
      white space `p` and `q` surround `core` with, `Trim` gives back `core`. */
  lemma TrimExact(p: string, core: string, q: string)
    requires AllSpace(p) && AllSpace(q) && Trimmed(core)
    ensures Trim(p + core + q) == core
  {
    if |core| == 0 {
      assert p + core + q == (p + q) + "";
      assert AllSpace(p + q);
      TrimStartSkips(p + q, "");
      assert TrimEnd("") == "";
    } else {
      assert p + core + q == p + (core + q);
      TrimStartSkips(p, core + q);
      TrimEndSkips(core, q);
    }
  }

  /** Trimming a string that is already trimmed changes nothing. */
  lemma TrimIdempotent(s: string)
    ensures Trim(Trim(s)) == Trim(s)
  {
    var t := Trim(s);
    TrimExact("", t, "");
    assert "" + t + "" == t;
  }

  // ---------------------------------------------------------------------------
  // split and join

  /** Number of occurrences of `c` in `s`. */
  function CountOf(s: string, c: char): nat {
    if |s| == 0 then 0 else (if s[0] == c then 1 else 0) + CountOf(s[1..], c)
  }

  /** Position of the first `c` in `s`. */
  function IndexOf(s: string, c: char): (i: nat)
    requires c in s
    ensures i < |s| && s[i] == c && c !in s[..i]
  {
    if s[0] == c then 0
    else
      var i := 1 + IndexOf(s[1..], c);
      assert s[..i] == [s[0]] + s[1..][..i - 1];
      i
  }

  /** `Array.prototype.join(sep)` over strings already converted. */
  function Join(parts: seq<string>, sep: string): string {
    if |parts| == 0 then ""
    else if |parts| == 1 then parts[0]
    else parts[0] + sep + Join(parts[1..], sep)
  }

  lemma {:induction false} CountSplit(s: string, c: char, i: nat)
    requires i < |s| && s[i] == c && c !in s[..i]
    ensures CountOf(s, c) == 1 + CountOf(s[i + 1..], c)
  {
    if i > 0 {
      assert s[0] in s[..i];
      assert s[1..][..i - 1] == s[1..i];
      assert s[1..][i..] == s[i + 1..];
      CountSplit(s[1..], c, i - 1);
    }
  }

  lemma {:induction false} CountAbsent(s: string, c: char)
    requires c !in s
    ensures CountOf(s, c) == 0
  {
    if |s| > 0 {
      assert s[0] in s;
      assert forall x :: x in s[1..] ==> x in s;
      CountAbsent(s[1..], c);
    }
  }

  /** `s.split(sep)` for a one-character separator: the pieces between
      separators, in order, always at least one (`"".split(",")` is `[""]`). */
  function Split(s: string, sep: char): (r: seq<string>)
    ensures |r| == CountOf(s, sep) + 1
    ensures forall i :: 0 <= i < |r| ==> sep !in r[i]
    ensures Join(r, [sep]) == s
    decreases |s|
  {
    if sep !in s then
      CountAbsent(s, sep);
      [s]
    else
      var i := IndexOf(s, sep);
      var rest := Split(s[i + 1..], sep);
      SplitStep(s, sep, i, rest);
      [s[..i]] + rest
  }

  /** One step of `Split`: the piece before the first separator, then the
      pieces of what follows it. */
  lemma SplitStep(s: string, sep: char, i: nat, rest: seq<string>)
    requires i < |s| && s[i] == sep && sep !in s[..i]
    requires |rest| == CountOf(s[i + 1..], sep) + 1
    requires forall j :: 0 <= j < |rest| ==> sep !in rest[j]
    requires Join(rest, [sep]) == s[i + 1..]
    ensures |[s[..i]] + rest| == CountOf(s, sep) + 1
    ensures forall j :: 0 <= j < |[s[..i]] + rest| ==> sep !in ([s[..i]] + rest)[j]
    ensures Join([s[..i]] + rest, [sep]) == s
  {
    CountSplit(s, sep, i);
    var r := [s[..i]] + rest;
    assert r[1..] == rest;
    assert Join(r, [sep]) == s[..i] + [sep] + s[i + 1..];
    assert s == s[..i] + [sep] + s[i + 1..];
    forall j | 0 <= j < |r|
      ensures sep !in r[j]
    {
      if j > 0 {
        assert r[j] == rest[j - 1];
      }
    }
  }

  lemma IndexOfPrefix(p: string, sep: char, t: string)
    requires sep !in p
    ensures sep in p + [sep] + t
    ensures IndexOf(p + [sep] + t, sep) == |p|
  {
    var s := p + [sep] + t;
    assert s[|p|] == sep;
    assert s[..|p|] == p;
  }

  /** Splitting the join of separator-free pieces gives the pieces back; with
      `Split`'s own `Join(Split(s)) == s` the two are mutual inverses. */
  lemma {:induction false} SplitJoin(parts: seq<string>, sep: char)
    requires |parts| > 0
    requires forall i :: 0 <= i < |parts| ==> sep !in parts[i]
    ensures Split(Join(parts, [sep]), sep) == parts
  {
    if |parts| > 1 {
      var rest := parts[1..];
      var t := Join(rest, [sep]);
      var s := parts[0] + [sep] + t;
      assert Join(parts, [sep]) == s;
      IndexOfPrefix(parts[0], sep, t);
      assert s[..|parts[0]|] == parts[0];
      assert s[|parts[0]| + 1..] == t;
      assert forall j :: 0 <= j < |rest| ==> sep !in rest[j] by {
        forall j | 0 <= j < |rest| ensures sep !in rest[j] {
          assert rest[j] == parts[j + 1];
        }
      }
      SplitJoin(rest, sep);
      assert Split(s, sep) == [parts[0]] + Split(t, sep);
      assert parts == [parts[0]] + rest;
    }
  }

  // ---------------------------------------------------------------------------
  // decimal numbers

  function DigitChar(d: nat): char
    requires d < 10
  {
    ('0' as int + d) as char
  }

  function DigitValue(c: char): nat
    requires IsDigit(c)
  {
    c as int - '0' as int
  }

  /** The decimal digits of a natural number, most significant first, with no
      leading zero. */
  function Natural(n: nat): (r: string)
    ensures |r| > 0 && AllDigits(r)
    ensures r[0] == '0' ==> n == 0
  {
    if n < 10 then [DigitChar(n)] else Natural(n / 10) + [DigitChar(n % 10)]
  }

  /** The value of a string of decimal digits. */
  function DigitsValue(s: string): nat
    requires AllDigits(s)
  {
    if |s| == 0 then 0 else 10 * DigitsValue(s[..|s| - 1]) + DigitValue(s[|s| - 1])
  }

  lemma {:induction false} NaturalValue(n: nat)
    ensures DigitsValue(Natural(n)) == n
  {
    if n >= 10 {
      var r := Natural(n);
      assert r[..|r| - 1] == Natural(n / 10);
      NaturalValue(n / 10);
    }
  }

  /** How a JavaScript integer prints: `String(n)` (integers only). */
  function Decimal(n: int): (r: string)
    ensures |r| > 0
    ensures n < 0 <==> r[0] == '-'
    ensures AllDigits(if n < 0 then r[1..] else r)
  {
    if n < 0 then "-" + Natural(-n) else Natural(n)
  }

  /** Length of the longest prefix of `s` made of digits. */
  function DigitRun(s: string): (k: nat)
    ensures k <= |s| && AllDigits(s[..k])
    ensures k < |s| ==> !IsDigit(s[k])
  {
    if |s| > 0 && IsDigit(s[0]) then
      var k := 1 + DigitRun(s[1..]);
      assert s[..k] == [s[0]] + s[1..][..k - 1];
      k
    else 0
  }

  /** What `parseInt` reads digits from: `s` without leading white space and
      without one leading sign. */
  function Unsigned(s: string): (u: string)
    ensures |u| <= |s|
  {
    var t := TrimStart(s);
    if |t| > 0 && (t[0] == '+' || t[0] == '-') then t[1..] else t
  }

  /** `parseInt(s, 10)`: skip leading white space, read an optional sign, then
      the longest run of digits; `None` is NaN (no digit after the sign). */
  function ParseInt(s: string): (r: Option<int>)
    ensures r.Some? <==> |Unsigned(s)| > 0 && IsDigit(Unsigned(s)[0])
  {
    var t := TrimStart(s);
    var u := Unsigned(s);
    var k := DigitRun(u);
    if k == 0 then None
    else
      var v: int := DigitsValue(u[..k]);
      Some(if |t| > 0 && t[0] == '-' then -v else v)
  }

  lemma DigitNotSpace(c: char)
    requires IsDigit(c) || c == '-' || c == '+'
    ensures !IsSpace(c)
  {
  }

  lemma UnsignedDecimal(n: int)
    ensures Unsigned(Decimal(n)) == Natural(if n < 0 then -n else n)
  {
    var d := Decimal(n);
    DigitNotSpace(d[0]);
    assert TrimStart(d) == d;
  }

  /** `parseInt` reads back what `String` printed: the two are inverse on integers. */
  lemma ParseDecimal(n: int)
    ensures ParseInt(Decimal(n)) == Some(n)
  {
    var m := if n < 0 then -n else n;
    var d := Natural(m);
    UnsignedDecimal(n);
    DigitRunAll(d);
    assert d[..|d|] == d;
    NaturalValue(m);
    DigitNotSpace(Decimal(n)[0]);
    assert TrimStart(Decimal(n)) == Decimal(n);
  }

  lemma DigitRunAll(s: string)
    requires AllDigits(s)
    ensures DigitRun(s) == |s|
  {
    if |s| > 0 {
      DigitRunAll(s[1..]);
    }
  }

  lemma {:induction false} DigitRunStops(d: string, rest: string)
    requires AllDigits(d) && (|rest| == 0 || !IsDigit(rest[0]))
    ensures DigitRun(d + rest) == |d|
  {
    if |d| > 0 {
      assert (d + rest)[1..] == d[1..] + rest;
      DigitRunStops(d[1..], rest);
    } else {
      assert d + rest == rest;
    }
  }

  /** A sign `parseInt` accepts: none, or one `+` or `-`. */
  predicate OptionalSign(sign: string) {
    |sign| == 0 || (|sign| == 1 && (sign[0] == '+' || sign[0] == '-'))
  }

  /** The value `parseInt` reads: after leading white space and an optional
      sign, the longest run of digits, leading zeros included and whatever
      follows ignored, negated after a minus sign. */
  lemma ParseIntReads(w: string, sign: string, d: string, rest: string)
    requires AllSpace(w) && OptionalSign(sign)
    requires |d| > 0 && AllDigits(d) && (|rest| == 0 || !IsDigit(rest[0]))
    ensures ParseInt(w + sign + d + rest) ==
            Some(if |sign| == 1 && sign[0] == '-' then -(DigitsValue(d) as int) else DigitsValue(d) as int)
  {
    var s := w + sign + d + rest;
    SkipToDigits(w, sign, d, rest);
    DigitRunStops(d, rest);
    assert (d + rest)[..|d|] == d;
    ParseIntFrom(s, sign + d + rest, d + rest, d, |sign| == 1 && sign[0] == '-');
  }

  /** Past the white space and the sign, `parseInt` reaches the digits. */
  lemma SkipToDigits(w: string, sign: string, d: string, rest: string)
    requires AllSpace(w) && OptionalSign(sign) && |d| > 0 && AllDigits(d)
    ensures TrimStart(w + sign + d + rest) == sign + d + rest
    ensures Unsigned(w + sign + d + rest) == d + rest
  {
    var t := sign + d + rest;
    assert w + sign + d + rest == w + t;
    assert t[0] == (if |sign| > 0 then sign[0] else d[0]);
    DigitNotSpace(t[0]);
    TrimStartSkips(w, t);
    if |sign| > 0 {
      assert t[1..] == d + rest;
    } else {
      assert t == d + rest;
    }
  }

  lemma ParseIntFrom(s: string, t: string, u: string, d: string, negative: bool)
    requires TrimStart(s) == t && Unsigned(s) == u
    requires 0 < |d| <= |u| && DigitRun(u) == |d| && u[..|d|] == d
    requires negative <==> |t| > 0 && t[0] == '-'
    ensures ParseInt(s) == Some(if negative then -(DigitsValue(d) as int) else DigitsValue(d) as int)
  {
  }

  /** Leading zeros are read as digits: "007" gives 7. */
  lemma LeadingZerosExample(s: string)
    requires s == "007"
    ensures ParseInt(s) == Some(7)
  {
    ZeroZeroSeven(s);
    ParseIntReads("", "", s, "");
    assert "" + "" + s + "" == s;
  }

  lemma ZeroZeroSeven(s: string)
    requires s == "007"
    ensures AllDigits(s) && DigitsValue(s) == 7
  {
    var a, b := s[..1], s[..2];
    assert a[..0] == [] && a[0] == '0' && DigitsValue(a) == 0;
    assert b[..1] == a && b[1] == '0' && DigitsValue(b) == 0;
    assert s[..2] == b && s[2] == '7';
  }

  /** A plus sign is accepted: "+5" gives 5. */
  lemma PlusSignExample(s: string)
    requires s == "+5"
    ensures ParseInt(s) == Some(5)
  {
    ParseIntReads("", s[..1], s[1..], "");
    assert "" + s[..1] + s[1..] + "" == s;
    assert DigitsValue(s[1..]) == 5 by {
      assert s[1..][..0] == "";
    }
  }

  /** What follows the digits is ignored: "12abc" gives 12. */
  lemma TrailingTextExample(s: string)
    requires s == "12abc"
    ensures ParseInt(s) == Some(12)
  {
    ParseIntReads("", "", s[..2], s[2..]);
    assert "" + "" + s[..2] + s[2..] == s;
    var a, b := s[..1], s[..2];
    assert a[..0] == [] && a[0] == '1' && DigitsValue(a) == 1;
    assert b[..1] == a && b[1] == '2' && DigitsValue(b) == 12;
  }

  /** `pieces.map(id => parseInt(id.trim(), 10))`. */
  function ParsePieces(pieces: seq<string>): (r: seq<Option<int>>)
    ensures |r| == |pieces|
    ensures forall i :: 0 <= i < |r| ==> r[i] == ParseInt(Trim(pieces[i]))
  {
    if |pieces| == 0 then [] else [ParseInt(Trim(pieces[0]))] + ParsePieces(pieces[1..])
  }

  /** A comma-separated id list as the node converts it:
      `s.split(',').map(id => parseInt(id.trim(), 10))`; one entry per comma
      plus one. */
  function ParseIdList(s: string): (r: seq<Option<int>>)
    ensures |r| == CountOf(s, ',') + 1
  {
    ParsePieces(Split(s, ','))
  }

  lemma TrimDecimal(n: int)
    ensures Trim(Decimal(n)) == Decimal(n)
    ensures ',' !in Decimal(n)
  {
    var d := Decimal(n);
    DigitNotSpace(d[0]);
    DigitNotSpace(d[|d| - 1]);
    TrimExact("", d, "");
    assert "" + d + "" == d;
  }

  /** A piece holding one integer between white space reads as that integer. */
  lemma PieceValue(p: string, n: int, q: string)
    requires AllSpace(p) && AllSpace(q)
    ensures ParseInt(Trim(p + Decimal(n) + q)) == Some(n)
  {
    TrimDecimal(n);
    TrimExact(p, Decimal(n), q);
    ParseDecimal(n);
  }

  /** An id list written as `"id,id,...,id"`, each id with any white space
      around it, parses back to exactly those ids, one per comma-separated
      piece and in the same order. */
  lemma IdListRoundTrip(pads: seq<(string, string)>, ids: seq<int>)
    requires |ids| > 0 && |pads| == |ids|
    requires forall i :: 0 <= i < |pads| ==> AllSpace(pads[i].0) && AllSpace(pads[i].1)
    ensures var r := ParseIdList(Join(Padded(pads, ids), ","));
            |r| == |ids| && forall i :: 0 <= i < |ids| ==> r[i] == Some(ids[i])
  {
    var ds := Padded(pads, ids);
    forall i | 0 <= i < |ds| ensures ',' !in ds[i] {
      TrimDecimal(ids[i]);
      assert !IsSpace(',');
      var p := pads[i].0;
      var q := pads[i].1;
      assert ds[i] == p + Decimal(ids[i]) + q;
    }
    SplitJoin(ds, ',');
    var r := ParseIdList(Join(ds, ","));
    forall i | 0 <= i < |ids| ensures r[i] == Some(ids[i]) {
      assert r[i] == ParseInt(Trim(ds[i]));
      PieceValue(pads[i].0, ids[i], pads[i].1);
    }
  }

  /** Each id surrounded by its white space. */
  function Padded(pads: seq<(string, string)>, ids: seq<int>): (r: seq<string>)
    requires |pads| == |ids|
    ensures |r| == |ids|
    ensures forall i :: 0 <= i < |ids| ==> r[i] == pads[i].0 + Decimal(ids[i]) + pads[i].1
  {
    if |ids| == 0 then [] else [pads[0].0 + Decimal(ids[0]) + pads[0].1] + Padded(pads[1..], ids[1..])
  }

  /** The pieces of an example id list, each id with its white space. */
  lemma ExamplePieces(pads: seq<(string, string)>, ids: seq<int>)
    requires pads == [(" ", ""), (" ", ""), ("", " ")] && ids == [1, 2, 3]
    ensures forall i :: 0 <= i < |pads| ==> AllSpace(pads[i].0) && AllSpace(pads[i].1)
    ensures Join(Padded(pads, ids), ",") == " 1, 2,3 "
  {
    assert Decimal(1) == "1" && Decimal(2) == "2" && Decimal(3) == "3";
    var ds := Padded(pads, ids);
    assert ds[0] == " " + "1" + "" == " 1";
    assert ds[1] == " " + "2" + "" == " 2";
    assert ds[2] == "" + "3" + " " == "3 ";
    assert ds == [" 1", " 2", "3 "];
    ExampleJoin();
  }

  lemma ExampleJoin()
    ensures Join([" 1", " 2", "3 "], ",") == " 1, 2,3 "
  {
  }

  /** An example: `" 1, 2,3 "` becomes `[1, 2, 3]`. */
  lemma IdListExample(s: string)
    requires s == " 1, 2,3 "
    ensures ParseIdList(s) == [Some(1), Some(2), Some(3)]
  {
    var pads := [(" ", ""), (" ", ""), ("", " ")];
    var ids := [1, 2, 3];
    ExamplePieces(pads, ids);
    IdListRoundTrip(pads, ids);
    OneTwoThree(ParseIdList(s), ids);
  }

  lemma OneTwoThree(r: seq<Option<int>>, ids: seq<int>)
    requires ids == [1, 2, 3] && |r| == |ids|
    requires forall i :: 0 <= i < |ids| ==> r[i] == Some(ids[i])
    ensures r == [Some(1), Some(2), Some(3)]
  {
    assert r[0] == Some(1) && r[1] == Some(2) && r[2] == Some(3);
  }

  /** A blank piece, as the middle one of `"1,,2"`, is NaN, and the pieces
      around it are still read one per comma. */
  lemma BlankPieceIsNaN(pieces: seq<string>, k: nat)
    requires k < |pieces|
    requires forall i :: 0 <= i < |pieces| ==> ',' !in pieces[i]
    requires AllSpace(pieces[k])
    ensures |ParseIdList(Join(pieces, ","))| == |pieces|
    ensures ParseIdList(Join(pieces, ","))[k] == None
  {
    SplitJoin(pieces, ',');
    TrimExact(pieces[k], "", "");
    assert pieces[k] + "" + "" == pieces[k];
  }
}

=== FILE: trigger.dfy ===
/** The webhook lifecycle of nodes/Thinkific/ThinkificTrigger.node.ts: a small
    state machine over one persisted slot, the node's static `webhookId`.
    `checkExists`, `create` and `delete` each take the slot and the vendor's
    reply to the one request they make, and give the requests they made, the
    new slot and their boolean (or the message of the error they threw). */
module Trigger {
  import opened Wrappers
  import opened Json
  import opened Requests
  import Text

  /** The static `webhookId`: `None` while it is `undefined`. */
  type Slot = Option<Json>

  /** What the host tells the trigger: its own webhook URL and the chosen
      event (the `topic` Thinkific uses). */
  datatype Setup = Setup(webhookUrl: string, event: string)

  /** The slot after a lifecycle method, and the boolean it returned. */
  datatype Hook = Hook(slot: Slot, ok: bool)

  /** The requests a lifecycle method made, in order, and its outcome. */
  datatype Step = Step(calls: seq<Call>, outcome: Result<Hook>)

  /** The TypeError of a `for ... of` over a value that is not iterable. */
  const NotIterable: string := "items is not iterable"

  /** The one request of `checkExists`: list the webhooks. */
  function ListCall(): (c: Call)
    ensures c.verb == GET && c.endpoint == "/webhooks" && c.body == map[] && c.query == map[]
  {
    Call(GET, "/webhooks", map[], map[])
  }

  /** The one request of `create`: register the URL for the event. */
  function CreateCall(setup: Setup): (c: Call)
    ensures c.verb == POST && c.endpoint == "/webhooks" && c.query == map[]
    ensures c.body.Keys == {"topic", "target_url"}
    ensures c.body["topic"] == JStr(setup.event) && c.body["target_url"] == JStr(setup.webhookUrl)
  {
    Call(POST, "/webhooks", map["topic" := JStr(setup.event), "target_url" := JStr(setup.webhookUrl)], map[])
  }

  /** The one request of `delete`: remove the stored webhook, its id written
      into the path as text. */
  function DeleteCall(id: Json): (c: Call)
    ensures c.verb == DELETE && c.body == map[] && c.query == map[]
    ensures c.endpoint == "/webhooks/" + Str(id)
  {
    Call(DELETE, "/webhooks/" + Str(id), map[], map[])
  }

  /** A listed webhook is ours: strictly the same URL string and topic. */
  predicate Matches(item: Json, setup: Setup) {
    && Prop(item, "target_url") == Some(JStr(setup.webhookUrl))
    && Prop(item, "topic") == Some(JStr(setup.event))
  }

  /** The `for ... of` over the listed webhooks: the index of the first one
      that matches, or a TypeError when a `null` entry comes first. */
  function Scan(items: seq<Json>, setup: Setup): (r: Result<Option<nat>>)
    ensures r.Ok? && r.value.Some? ==>
              && r.value.value < |items| && Matches(items[r.value.value], setup)
              && forall j :: 0 <= j < r.value.value ==> items[j] != JNull && !Matches(items[j], setup)
    ensures r.Ok? && r.value.None? ==>
              forall j :: 0 <= j < |items| ==> items[j] != JNull && !Matches(items[j], setup)
    ensures r.Err? ==>
              && r.msg == NullRead
              && exists k :: 0 <= k < |items| && items[k] == JNull &&
                   forall j :: 0 <= j < k ==> !Matches(items[j], setup)
  {
    if |items| == 0 then Ok(None)
    else if items[0] == JNull then Err(NullRead)
    else if Matches(items[0], setup) then Ok(Some(0))
    else
      match Scan(items[1..], setup)
      case Err(m) =>
        ghost var k :| 0 <= k < |items[1..]| && items[1..][k] == JNull &&
                 forall j :: 0 <= j < k ==> !Matches(items[1..][j], setup);
        assert items[k + 1] == JNull;
        Err(m)
      case Ok(None) => Ok(None)
      case Ok(Some(k)) => Ok(Some(k + 1))
  }

  /** `checkExists`: list the webhooks and, at the first that matches, store
      its id and answer true; no list, or no match, answers false and leaves
      the slot alone. */
  function CheckExists(setup: Setup, slot: Slot, reply: Reply): (s: Step)
    ensures s.calls == [ListCall()]
    ensures reply.Fault? ==> s.outcome == Err(ErrorMessage(reply.error))
    ensures s.outcome.Ok? && !s.outcome.value.ok ==> s.outcome.value.slot == slot
  {
    var calls := [ListCall()];
    match reply
    case Fault(e) => Step(calls, Err(ErrorMessage(e)))
    case Answer(webhooks) =>
      if webhooks == JNull then Step(calls, Err(NullRead))
      else if !Given(Prop(webhooks, "items")) then Step(calls, Ok(Hook(slot, false)))
      else
        match Prop(webhooks, "items").value
        case JArr(xs) =>
          (match Scan(xs, setup)
           case Err(m) => Step(calls, Err(m))
           case Ok(None) => Step(calls, Ok(Hook(slot, false)))
           case Ok(Some(k)) => Step(calls, Ok(Hook(Prop(xs[k], "id"), true))))
        case JStr(_) => Step(calls, Ok(Hook(slot, false)))
        case _ => Step(calls, Err(NotIterable))
  }

  /** The webhook at index `k` of a list response's `items` is the first one
      that matches: it is found, its id is stored and the answer is true. */
  lemma CheckExistsFinds(setup: Setup, slot: Slot, webhooks: Json, xs: seq<Json>, k: nat)
    requires webhooks != JNull && Prop(webhooks, "items") == Some(JArr(xs))
    requires k < |xs| && Matches(xs[k], setup)
    requires forall j :: 0 <= j < k ==> xs[j] != JNull && !Matches(xs[j], setup)
    ensures CheckExists(setup, slot, Answer(webhooks)).outcome == Ok(Hook(Prop(xs[k], "id"), true))
  {
  }

  /** When no webhook in a list response's `items` matches (and none is
      `null`), the answer is false and the slot is untouched. */
  lemma CheckExistsMisses(setup: Setup, slot: Slot, webhooks: Json, xs: seq<Json>)
    requires webhooks != JNull && Prop(webhooks, "items") == Some(JArr(xs))
    requires forall j :: 0 <= j < |xs| ==> xs[j] != JNull && !Matches(xs[j], setup)
    ensures CheckExists(setup, slot, Answer(webhooks)).outcome == Ok(Hook(slot, false))
  {
  }

  /** Over a list response whose `items` holds no `null`, `checkExists`
      answers true exactly when some listed webhook matches. */
  lemma CheckExistsIff(setup: Setup, slot: Slot, webhooks: Json, xs: seq<Json>)
    requires webhooks != JNull && Prop(webhooks, "items") == Some(JArr(xs))
    requires forall j :: 0 <= j < |xs| ==> xs[j] != JNull
    ensures var s := CheckExists(setup, slot, Answer(webhooks));
            && s.outcome.Ok?
            && (s.outcome.value.ok <==> exists k :: 0 <= k < |xs| && Matches(xs[k], setup))
  {
    var s := CheckExists(setup, slot, Answer(webhooks));
    match Scan(xs, setup)
    case Ok(Some(k)) =>
      assert Matches(xs[k], setup);
    case Ok(None) =>
  }

  /** A list response without `items`, or with falsy `items`, answers false
      and leaves the slot untouched. */
  lemma CheckExistsNoItems(setup: Setup, slot: Slot, webhooks: Json)
    requires webhooks != JNull && !Given(Prop(webhooks, "items"))
    ensures CheckExists(setup, slot, Answer(webhooks)) == Step([ListCall()], Ok(Hook(slot, false)))
  {
  }

  /** `create`: register the webhook; a response without `id` answers false
      and leaves the slot alone, otherwise the id is stored. */
  function Create(setup: Setup, slot: Slot, reply: Reply): (s: Step)
    ensures s.calls == [CreateCall(setup)]
    ensures reply.Fault? ==> s.outcome == Err(ErrorMessage(reply.error))
    ensures reply.Answer? && reply.body != JNull ==>
              && s.outcome.Ok?
              && s.outcome.value.ok == Prop(reply.body, "id").Some?
              && s.outcome.value.slot == (if s.outcome.value.ok then Prop(reply.body, "id") else slot)
  {
    var calls := [CreateCall(setup)];
    match reply
    case Fault(e) => Step(calls, Err(ErrorMessage(e)))
    case Answer(webhook) =>
      if webhook == JNull then Step(calls, Err(NullRead))
      else
        match Prop(webhook, "id")
        case None => Step(calls, Ok(Hook(slot, false)))
        case Some(id) => Step(calls, Ok(Hook(Some(id), true)))
  }

  /** `delete`: with no stored id, nothing is sent and the answer is true;
      otherwise the webhook is deleted, a failure answering false and keeping
      the id, a success clearing the slot. Errors are caught, never thrown. */
  function Delete(slot: Slot, reply: Reply): (s: Step)
    ensures s.outcome.Ok?
    ensures slot.None? ==> s.calls == [] && s.outcome.value == Hook(None, true)
    ensures slot.Some? ==> s.calls == [DeleteCall(slot.value)]
    ensures slot.Some? ==> s.outcome.value == if reply.Fault? then Hook(slot, false) else Hook(None, true)
  {
    match slot
    case None => Step([], Ok(Hook(None, true)))
    case Some(id) =>
      match reply
      case Fault(_) => Step([DeleteCall(id)], Ok(Hook(slot, false)))
      case Answer(_) => Step([DeleteCall(id)], Ok(Hook(None, true)))
  }

  /** Teardown is idempotent: once a delete has succeeded, deleting again
      sends nothing and answers true, whatever the vendor would say. */
  lemma DeleteIdempotent(slot: Slot, first: Reply, second: Reply)
    requires Delete(slot, first).outcome.value.ok
    ensures Delete(Delete(slot, first).outcome.value.slot, second) == Step([], Ok(Hook(None, true)))
  {
  }

  /** A failed delete keeps the id, so the next delete sends the very same
      request again. */
  lemma DeleteRetries(id: Json, failure: TransportError, next: Reply)
    ensures var after := Delete(Some(id), Fault(failure)).outcome.value;
            && !after.ok
            && Delete(after.slot, next).calls == [DeleteCall(id)]
  {
  }

  /** The webhook a successful `create` registered is the one `delete`
      removes: its id goes into the DELETE path, and the slot ends empty. */
  lemma CreateThenDelete(setup: Setup, slot: Slot, created: Obj, done: Json)
    requires "id" in created
    ensures var made := Create(setup, slot, Answer(JObj(created))).outcome.value;
            var gone := Delete(made.slot, Answer(done));
            && made.ok
            && gone.calls == [Call(DELETE, "/webhooks/" + Str(created["id"]), map[], map[])]
            && gone.outcome == Ok(Hook(None, true))
  {
  }

  /** A numeric id goes into the DELETE path as its decimal digits. */
  lemma DeleteNumericId(n: int, reply: Reply)
    ensures Delete(Some(JNum(n)), reply).calls[0].endpoint == "/webhooks/" + Text.Decimal(n)
  {
  }

  /** `webhook`: the received body is the single output batch, one record
      per element when it is an array and the body itself otherwise. */
  function Webhook(body: Json): (batches: seq<seq<Json>>)
    ensures |batches| == 1
    ensures body.JArr? ==> JArr(batches[0]) == body
    ensures !body.JArr? ==> batches[0] == [body]
  {
    [Records(body)]
  }
}

=== FILE: wrappers.dfy ===
/** Failure-compatible result types shared by every module of the model.
    A thrown JavaScript error is represented only by its message text. */
module Wrappers {

  /** A value that may be absent (`undefined` in the source). */
  datatype Option<+T> = None | Some(value: T) {
    function GetOr(fallback: T): T {
      match this
      case Some(v) => v
      case None => fallback
    }
  }

  /** Either a value or the message of the error that was thrown. */
  datatype Result<+T> = Ok(value: T) | Err(msg: string) {
    predicate IsFailure() {
      Err?
    }

    function PropagateFailure<U>(): Result<U>
      requires Err?
    {
      Err(msg)
    }

    function Extract(): T
      requires Ok?
    {
      value
    }
  }
}
